=== FILE: README.md ===
# A verified model of the game core of *Catch the Russians*

The game is a canvas arcade game written in TypeScript: the player walks towards
the mouse cursor while bouncing enemy balls spawn on a grid, collide with the
walls, with headquarters squares and with each other, and end the game when one
of them touches the player. Under the drawing and trigonometry sits a small
deterministic core, and this project models it in Dafny and proves its
properties:

- **Grid layout** (`grid.dfy`, module `Grid`): `getRowsCols` sizes a grid for n
  items, with `Math.floor(Math.sqrt(n))` written as an exact integer floor
  square root. `getCellByNumber` maps a 1-based place number to a 1-based
  (row, col) cell in row-major or column-major order. JavaScript's truncating
  `%`, `Math.ceil` of a quotient and the `x || y` fallback are written out.
- **Angle normalisation** (`angles.dfy`, module `Angles`): `deg180To360`.
- **Geometry** (`geometry.dfy`, module `Geometry`): points and rectangles, and
  the time step `Math.min(deltaTime, 0.1)`. It also holds `Heading`, the
  velocity `(cos a · s, sin a · s)` for `a = atan2(v.y, v.x)`.
- **Walls** (`circles.dfy`, module `Circles`): the clamp-and-bounce wall handler
  with restitution 1.2. `Circle` and `Enemy` share it.
- **Enemies** (`enemies.dfy`, module `Enemies`):
  - the three sizes and `typeSize`;
  - the mass;
  - the spawn position (the constructor's inline column-major copy of
    `getCellByNumber`);
  - the aim at a random target;
  - the speed decay towards 200;
  - one `updateEnemyState` tick;
  - the wall handler;
  - the elastic impulse of `enemyCollisionHandler`.
- **Player** (`players.dfy`, module `Players`):
  - the constructor's centring;
  - the distance, heading and velocity updates;
  - the arrival dead zone of `updatePosition`;
  - the position and destination setters.
- **Sprite frames** (`sprites.dfy`, module `Sprites`): `nextFrame`, `setFrame`
  and the source rectangle of `getSpriteArgsToDraw`.
- **One animation frame** (`canvas.dfy`, module `Canvas`): the control logic of
  `anim`:
  - the per-enemy work and its order;
  - the i < j pair sweep;
  - the one-way game-over latch and the killer mark;
  - the headquarters flags;
  - the gating of the player.

  The game objects are type parameters and everything done to them is a
  function parameter.

Random numbers, square roots and the frame's time stamps are parameters.
`Math.hypot(x, y)` is a parameter `d` tied down by `d >= 0 && d*d == x*x + y*y`
(`Geometry.IsHypot`). Divisions by zero are `None` in the model: they give
`NaN` or `Infinity` in the game.

Numbers are exact reals or unbounded integers. Counts and places are integers.

**The collision sign.** `enemyCollisionHandler` (`src/app/game-objects/enemy.ts:190-224`)
has this shape:

- The normal points from `this` to the other enemy.
- The relative velocity is `this.velocity - enemy.velocity`.
- The projected "speed" is therefore positive exactly when the two centres are
  getting closer.
- It is negative when they are moving apart.

So the early return on `speed < 0` skips separating pairs and resolves
approaching ones, which is the conventional elastic rule. The code is not
inverted. `Enemies.CollideOutcome` and `Enemies.CollideReversesApproach` prove
this: after the handler a pair never approaches.

**Different revisions.** `src/app/canvas/canvas.tsx` calls methods the enemy
class in `src/app/game-objects/enemy.ts` does not have:

- `updateEnemyState` with two arguments;
- `isKiller`;
- `updateFrame`.

It also calls `player.wallsCollisionHandler` (`src/app/canvas/canvas.tsx:108`),
which the `Player` class in `src/app/game-objects/player.ts` does not define,
and `World` collision helpers whose bodies are not part of this model. The
frame is therefore modelled over abstract operations (`Canvas.Rules`). The
shown `Enemy` and `Player` methods are modelled separately in `Enemies` and
`Players`.

## Model

| member | source | states |
|---|---|---|
| Grid.FloorSqrt | src/app/utils/getRowsCols.ts:2 | the result r is the largest natural with r*r <= n, i.e. `Math.floor(Math.sqrt(n))` |
| Grid.FloorSqrtUnique | src/app/utils/getRowsCols.ts:2 | any r with r*r <= n < (r+1)*(r+1) is the floor square root, so it is determined by those inequalities |
| Grid.RowsCols | src/app/utils/getRowsCols.ts:1-8 | the grid holds n items (rows*cols >= n); cols is rows or rows+1; for n >= 1 it is tight: one row fewer or one column fewer would not hold n; n = 0 gives a 0 by 0 grid |
| Grid.PerfectSquare | src/app/utils/getRowsCols.ts:2-5 | k*k items are laid out as a k by k square |
| Grid.JsRem | src/app/utils/getCellByNumber.ts:13 | JavaScript's remainder has the sign of the dividend and magnitude below the divisor's, and differs from the dividend by a multiple of the divisor |
| Grid.OrElse | src/app/utils/getCellByNumber.ts:8-13 | a nonzero remainder is kept and a zero one gives the row or column count, so the result is zero only when that count is |
| Grid.CeilDiv | src/app/utils/getCellByNumber.ts:14 | for a positive divisor, the least integer q with a <= q*b |
| Grid.CellByNumber | src/app/utils/getCellByNumber.ts:1-16 | no cell exactly when the divisor of the chosen order is 0; every place 1..rows*cols gets a cell of the grid whose number in that order is the place again |
| Grid.CellRoundTrip | src/app/utils/getCellByNumber.ts:7-15 | numbering any cell of the grid and looking the number up gives the cell back, in both orders, so the mapping is a bijection between 1..rows*cols and the cells |
| Grid.RowMajorCell | src/app/utils/getCellByNumber.ts:13-15 | in row-major order place k+1 is the cell after k div cols full rows and k mod cols cells of the next row |
| Grid.CellInjective | src/app/utils/getCellByNumber.ts:7-15 | distinct places in range get distinct cells, in both orders |
| Grid.MultipleInLastColumn | src/app/utils/getCellByNumber.ts:13-14 | in row-major order place k*cols is cell (k, cols): the `|| cols` fallback puts multiples in the last column, never in a column 0 |
| Grid.LayoutHoldsEveryPlace | src/app/utils/getRowsCols.ts:1-8 | every place 1..n gets a cell of the grid `getRowsCols(n)` sizes, in both orders |
| Angles.Deg180To360 | src/app/utils/deg180To360.ts:1-4 | a negative angle gains a full turn and any other is unchanged, so the result differs from the input by 0 or 360; the result lies in [0, 360) exactly when the input lies in [-360, 360) |
| Angles.AtanRangeLandsInTurn | src/app/utils/deg180To360.ts:1-4 | every angle in [-180, 180] is mapped into [0, 360) |
| Angles.IdempotentIff | src/app/utils/deg180To360.ts:2-3 | applying the function twice equals applying it once exactly for inputs >= -360 |
| Angles.CanonicalRepresentative | src/app/utils/deg180To360.ts:2-3 | on [-360, 360) the result is the unique angle in [0, 360) that differs from the input by 0 or 360 |
| Geometry.Step | src/app/game-objects/enemy.ts:111-112 | the effective time step never exceeds 0.1, equals dt for short frames, is exactly 0.1 for long ones, and is non-negative for non-negative dt |
| Geometry.IntegrateBounds | src/app/game-objects/enemy.ts:110-113 | for dt >= 0 each axis moves by at most 0.1 times that axis' velocity; a frame of at most 0.1 s moves by exactly v*dt and a longer one by exactly 0.1*v |
| Geometry.HeadingFacts | src/app/game-objects/enemy.ts:122-131 | the velocity rebuilt from the direction of v and a speed s has length s and points the way v points; for the zero vector, whose angle `atan2(0, 0)` is 0, it points along the positive x axis |
| Circles.BounceAxis | src/app/game-objects/circle.ts:22-28 | below the low wall the centre is put one radius off it and the velocity turned inwards with magnitude scaled by exactly 1.2; past the high wall likewise on the other side; between them nothing changes |
| Circles.WallsCollision | src/app/game-objects/circle.ts:19-37 | the x axis is handled against the width and the y axis against the height, each as `BounceAxis`; the radius is unchanged |
| Circles.WallsKeepInside | src/app/game-objects/circle.ts:22-36 | in a field at least one diameter wide and high the circle always ends within [r, w-r] x [r, h-r] |
| Circles.InsideUnchangedIff | src/app/game-objects/circle.ts:22-36 | the handler leaves a circle unchanged, velocity included, exactly when it is already inside |
| Circles.WallsIdempotent | src/app/game-objects/circle.ts:19-37 | in a large enough field running the handler twice is the same as once |
| Circles.AxesIndependent | src/app/game-objects/circle.ts:30-36 | the x outcome depends on nothing of the y axis or the height, and the y outcome on nothing of the x axis or the width |
| Enemies.RadiusFor | src/app/game-objects/enemy.ts:48-54 | whatever the random number, the radius is one of 20, 25, 30 |
| Enemies.RadiusMonotone | src/app/game-objects/enemy.ts:49-54 | a larger random number never gives a smaller enemy |
| Enemies.SizesEquallyLikely | src/app/game-objects/enemy.ts:48-54 | of the numbers 1..99 that `random(99, 1)` draws, each size owns exactly 33 |
| Enemies.TypeSize | src/app/game-objects/enemy.ts:88-92 | a type exists exactly for the three radii and is in 1..3; any other radius has none |
| Enemies.TypeSizeRoundTrip | src/app/game-objects/enemy.ts:88-92 | the type of a type's radius is that type, and the radius of a radius' type is that radius: the types and radii are in bijection |
| Enemies.EveryEnemyHasType | src/app/game-objects/enemy.ts:48-92 | every radius the constructor can pick has a type, so the sprite choice never falls through |
| Enemies.Mass | src/app/game-objects/enemy.ts:77 | a ball of positive radius has positive mass |
| Enemies.MassIncreasing | src/app/game-objects/enemy.ts:77 | a bigger ball is strictly heavier |
| Enemies.SpawnPosition | src/app/game-objects/enemy.ts:56-65 | there is no finite position exactly when the grid has no rows or no columns |
| Enemies.SpawnInsideField | src/app/game-objects/enemy.ts:56-65 | every place 1..rows*cols spawns strictly inside (0, width) x (0, height), strictly inside the column-major cell of that place |
| Enemies.SpawnAtCellCentre | src/app/game-objects/enemy.ts:56-65 | the spawn point is the centre of its cell: on each axis it is equally far from both walls of the cell |
| Enemies.SpawnDistinct | src/app/game-objects/enemy.ts:56-65 | different places spawn at different positions |
| Enemies.OrElse | src/app/game-objects/enemy.ts:68-69 | a nonzero left operand is kept and a zero one gives the alternative, so the result is zero only when the alternative is |
| Enemies.AimOffset | src/app/game-objects/enemy.ts:67-70 | on each axis the aim is the offset from the spawn position to the target, or 1 where that offset is zero; so both components are nonzero and the aim is never the zero vector |
| Enemies.NewEnemy | src/app/game-objects/enemy.ts:48-77 | the enemy starts at its spawn position with speed 100, the radius the random number selects (which has a type), the positive mass of a ball of that radius, and a velocity whose length is the stored speed |
| Enemies.NewEnemyAimsAtTarget | src/app/game-objects/enemy.ts:67-75 | the initial velocity points towards the random target |
| Enemies.Decelerate | src/app/game-objects/enemy.ts:115-119 | above 200 the new speed is strictly between 200 and the old one, with 0.95 of the excess left; at or below 200 it is unchanged |
| Enemies.DecelerateDecays | src/app/game-objects/enemy.ts:115-119 | after k ticks the excess over 200 is 0.95^k of the original, so the speed approaches 200 from above without reaching it |
| Enemies.DecelerateFixed | src/app/game-objects/enemy.ts:116 | a speed at or below 200 is never changed by any number of ticks |
| Enemies.UpdateEnemyState | src/app/game-objects/enemy.ts:110-140 | a tick stores the decayed speed, rebuilds the velocity as the old velocity's heading at that speed, moves the position by the new velocity over the clamped time step, and changes neither the radius nor the mass |
| Enemies.UpdateKeepsHeading | src/app/game-objects/enemy.ts:121-132 | after a tick the stored speed is the length of the velocity, and the velocity still points the way it did |
| Enemies.UpdateNeverSpeedsUp | src/app/game-objects/enemy.ts:115-127 | a tick never speeds an enemy up: above 200 it strictly slows it without going below 200, leaving exactly 0.95 of the excess over 200; at or below 200 the speed is kept |
| Enemies.UpdateMovesBoundedly | src/app/game-objects/enemy.ts:110-113 | one tick moves each axis by at most 0.1 times the new velocity on that axis; it moves by exactly the new velocity times dt for a frame of at most 0.1 s, and times 0.1 for a longer one |
| Enemies.EnemyWalls | src/app/game-objects/enemy.ts:142-160 | the enemy's copy of the wall handler does to the enemy's body exactly what the circle handler does, keeps speed and mass, and in a large enough field leaves the enemy inside |
| Enemies.NormalFacts | src/app/game-objects/enemy.ts:201-204 | the collision normal has unit length and, stretched by the distance, is the offset between the centres |
| Enemies.NormalSpeedSign | src/app/game-objects/enemy.ts:210-216 | the projected speed has the sign of the relative velocity projected on the unnormalised offset |
| Enemies.CollideOutcome | src/app/game-objects/enemy.ts:190-224 | no result exactly for coincident centres or an approaching pair of zero total mass; a separating pair is returned unchanged; an approaching pair gets the impulse velocities and keeps positions, speeds and masses |
| Enemies.CollideConservesMomentum | src/app/game-objects/enemy.ts:217-223 | m1*v1 + m2*v2 is the same before and after, on each axis |
| Enemies.CollideReversesApproach | src/app/game-objects/enemy.ts:206-223 | the approach along the line of centres afterwards is minus its magnitude before: reversed when approaching, kept when separating |
| Enemies.CollideKeepsTangential | src/app/game-objects/enemy.ts:218-223 | both velocities keep their components across the line of centres |
| Enemies.CollideConservesEnergy | src/app/game-objects/enemy.ts:217-223 | total kinetic energy is the same before and after: the collision is elastic |
| Enemies.ResolveMomentum | src/app/game-objects/enemy.ts:217-223 | the impulse update conserves momentum for any offset and masses |
| Enemies.ResolveReverses | src/app/game-objects/enemy.ts:206-223 | the impulse update negates the relative velocity along the offset |
| Enemies.ResolveTangent | src/app/game-objects/enemy.ts:218-223 | the impulse update leaves both velocities' components perpendicular to the offset unchanged |
| Enemies.ResolveEnergy | src/app/game-objects/enemy.ts:217-223 | the impulse update keeps the total kinetic energy |
| Enemies.ResolveScale | src/app/game-objects/enemy.ts:217-223 | scaling both masses by a positive factor leaves the new velocities unchanged, so the value of pi in the mass never matters |
| Enemies.ExchangeMomentum | src/app/game-objects/enemy.ts:218-223 | moving the two bodies by opposite impulses weighted by the other's mass conserves momentum whatever the impulse |
| Enemies.ExchangeTangent | src/app/game-objects/enemy.ts:218-223 | the exchange changes velocities only along the normal |
| Enemies.ExchangeNormal | src/app/game-objects/enemy.ts:217-223 | with a unit normal and the impulse 2*speed/(m1+m2), the relative normal velocity is negated |
| Enemies.ExchangeEnergy | src/app/game-objects/enemy.ts:217-223 | with a unit normal and that impulse, kinetic energy is conserved |
| Players.NewPlayer | src/app/game-objects/player.ts:32-35 | the player starts at rest at the centre of the field, on its own destination |
| Players.NewPlayerStaysAtCentre | src/app/game-objects/player.ts:25-36 | a new player does not move on its first tick |
| Players.UpdatePosition | src/app/game-objects/player.ts:72-77 | within 2 of the destination nothing changes, even with a nonzero velocity; otherwise a short frame moves by exactly v*dt and a longer one by exactly 0.1*v; only the position ever changes |
| Players.UpdatePositionBounded | src/app/game-objects/player.ts:72-77 | one update moves each axis by at most 0.1 times the velocity on that axis |
| Players.UpdateDistanceToDestination | src/app/game-objects/player.ts:86-91 | the stored distance is non-negative and is the length of the offset to the destination; nothing else changes |
| Players.UpdateVelocity | src/app/game-objects/player.ts:79-96 | only the velocity changes |
| Players.VelocityTowardsDestination | src/app/game-objects/player.ts:79-96 | the new velocity has length 70 and points at the destination |
| Players.UpdatePlayerState | src/app/game-objects/player.ts:98-103 | a tick never changes the destination, stores the measured distance, and inside the dead zone leaves the position alone |
| Players.UpdatePlayerStateHeadsForDestination | src/app/game-objects/player.ts:98-103 | outside the dead zone a tick moves the player straight towards the destination by exactly 70 times the clamped step |
| Players.AtDestinationStaysPut | src/app/game-objects/player.ts:72-103 | a player standing on its destination does not move, whatever the frame |
| Players.SetDestination | src/app/game-objects/player.ts:117-119 | the setter changes the destination and nothing else |
| Players.SetPosition | src/app/game-objects/player.ts:109-111 | the setter changes the position and nothing else |
| Players.DestinationSurvivesTicks | src/app/game-objects/player.ts:98-119 | a destination set by the mouse is kept by the next tick, which walks towards it |
| Sprites.NewSprite | src/app/game-objects/sprite.ts:7-26 | a default sprite is a single frame: one row, one column, and a valid frame 0 |
| Sprites.NextFrame | src/app/game-objects/sprite.ts:43-49 | too soon after the last change nothing changes; otherwise the time is recorded and a valid frame steps to (frame+1) mod cols; any frame from -1 up is valid after a step; the sheet is untouched |
| Sprites.SetFrame | src/app/game-objects/sprite.ts:51-53 | any value is stored, and the counter is valid afterwards exactly when the value is a frame of the first row |
| Sprites.SetFrameRecovers | src/app/game-objects/sprite.ts:43-53 | an out-of-range frame not below -1 is back in range after the next step |
| Sprites.AnimateKeepsValid | src/app/game-objects/sprite.ts:43-49 | whatever the time stamps, a valid counter stays valid over any run of calls |
| Sprites.AnimateCounts | src/app/game-objects/sprite.ts:43-49 | with every call late enough, after n calls the frame is (frame+n) mod cols and the last time stamp is recorded |
| Sprites.AnimateFullCycle | src/app/game-objects/sprite.ts:43-49 | cols counted calls bring the counter back to where it started |
| Sprites.SpriteArgsToDraw | src/app/game-objects/sprite.ts:28-41 | there is no finite rectangle exactly when the sheet has no columns; the rectangle always has the frame's size |
| Sprites.SpriteArgsTileTheSheet | src/app/game-objects/sprite.ts:28-41 | frame k is cut from column k mod cols of row k div cols |
| Sprites.SheetCell | src/app/game-objects/sprite.ts:29-40 | frame q*cols + m, for m below cols, is cut after q full rows and m frames of the next |
| Sprites.SpriteArgsFirstRow | src/app/game-objects/sprite.ts:28-41 | for a valid counter the rectangle is at (frame*frameWidth, 0) with the frame's size |
| Canvas.SweptPairsMembers | src/app/canvas/canvas.tsx:59-79 | after the first i enemies the sweep has visited exactly the pairs (a, b) with a < i and a < b < n |
| Canvas.SweptPairsSorted | src/app/canvas/canvas.tsx:59-79 | the pairs are visited in strictly increasing lexicographic order |
| Canvas.AllPairsExactlyOnce | src/app/canvas/canvas.tsx:59-79 | a full sweep visits each pair of distinct enemies exactly once, never an enemy with itself |
| Canvas.SweepRow | src/app/canvas/canvas.tsx:67-79 | the inner loop's work on the list of enemies, as a function: it keeps the number of enemies and never touches an enemy before i |
| Canvas.RowStep | src/app/canvas/canvas.tsx:60-79 | enemy i's update followed by its row of the sweep keeps the number of enemies and never touches an enemy before i |
| Canvas.SweepLoop | src/app/canvas/canvas.tsx:67-79 | the inner loop computes exactly the sweep `SweepRow` describes: for j = i+1, ..., n-1 in turn, a colliding pair is replaced by the resolved pair; it visits (i, i+1), ..., (i, n-1) in order |
| Canvas.TakeTurn | src/app/canvas/canvas.tsx:59-93 | one enemy's turn: the enemy checked against the player is the one `RowStep` leaves, the check happens only while the game is on, and the sprite step receives the mark as it stands after the check; earlier enemies are untouched |
| Canvas.TurnsStep | src/app/canvas/canvas.tsx:59-94 | one more turn extends the record of turns: the list before it, the state checked and the marks as they now stand |
| Canvas.MarkKiller | src/app/canvas/canvas.tsx:81-90 | marking one enemy when the game ends keeps at most one killer |
| Canvas.MarksStep | src/app/canvas/canvas.tsx:81-90 | checking one more enemy keeps the latch: on a hit of a game still on, the game ends and exactly that enemy is marked; otherwise nothing changes |
| Canvas.RunEnemies | src/app/canvas/canvas.tsx:59-94 | starting from the frame's enemies, each turn takes the list before it to the list after it by `update`, the row sweep and the sprite step; the state checked against the player is the one after the row sweep; the game ends exactly when some checked state touches the player, and the first such enemy is the one marked |
| Canvas.FindOverlapping | src/app/canvas/canvas.tsx:97-99 | the index found is the first enemy overlapping the square, and there is none exactly when no enemy overlaps it |
| Canvas.HeadquartersFlags | src/app/canvas/canvas.tsx:96-104 | each headquarters' flag is set exactly when some enemy overlaps its square |
| Canvas.Tick | src/app/canvas/canvas.tsx:52-113 | the pair loop visits exactly the sweep's pairs in order; the enemies go through the turns `RunEnemies` describes, from the frame's enemies to the final ones, each turn being enemy i's update with its mark, its row of collision resolutions and its sprite step; each enemy's final state is its sprite step, given its mark, applied to the state checked against the player; the game is over afterwards exactly when it was before or one of those checked states touches the player; an enemy is marked exactly when this frame ends the game, and it is the first one touching the player; game over is never reset and at most one killer is kept; the player moves exactly when the game is not over; the flags reflect the enemies' final states |

## Left out

- Drawing and the canvas component's React state, effects and styling: they
  have no game logic. This covers `drawEnemy`, `drawPlayer`, the draw helpers
  and `app.tsx`.
- `random.ts` and `Math.random`: the random size number and the random target
  are parameters. The size number is in 1..99 when the range matters.
- Trigonometry. Apart from the members left out below, `atan2`, `cos` and
  `sin` appear only in the pattern `(cos(atan2(y, x)) · s, sin(atan2(y, x)) · s)`.
  That pattern is modelled exactly over reals as `Geometry.Heading`:
  `(x/h · s, y/h · s)`, and `(s, 0)` for the zero vector.
  - `Circle.updateVelocity` (`src/app/game-objects/circle.ts:14-17`) reads an
    angle the model does not store, so it is left out.
  - The stored angles are left out. They feed drawing, and the enemy's
    stored angle also feeds the rectangle bounce at
    `src/app/game-objects/enemy.ts:184`, which is left out (below). After the
    wall or enemy collision handlers change the velocity, that stored angle
    is stale until the next tick recomputes it.
- `Enemy.handleCollisionCircleToRect` (`src/app/game-objects/enemy.ts:162-188`,
  which reflects the velocity through `-cos(2a - angle)`) and the `World`
  collision and nearest-point helpers. They rely on trigonometry and on code
  that is not part of this model. They stay abstract in `Canvas.Rules`.
- The frame's time keeping (`updateTimes`, `setIsGameStarted`, `drawFps`),
  sprite image loading and the `onload` handler that sets the frame size: these
  are I/O. The time step and the frame size are parameters.
- The mouse handler (`src/app/canvas/canvas.tsx:115-124`) is I/O. Its effect
  is `Players.SetDestination`.
- IEEE-754 effects:
  - rounding is exact;
  - `NaN` and `Infinity` from divisions by zero become `None`;
  - signed zeros are not distinguished (`atan2(-0, x)` is treated as `atan2(0, x)`).
- Grid.FloorSqrt: exact integer floor square root. `Math.floor(Math.sqrt(n))`
  agrees with it for the small counts the game uses. Very large doubles are not
  modelled.
- Players.UpdateDistanceToDestination: the distance is tied to the offset only by
  `d >= 0 && d*d == dx*dx + dy*dy`. The consequence that d is zero exactly when
  the player stands on its destination is not proved: the nonlinear step is
  beyond the solver in the configuration used. `Players.AtDestinationStaysPut`
  states the behaviour at the destination with d = 0.
- Sprites.SetFrame: frames are integers. The game's `setFrame` would also accept
  a fractional number.
- Canvas.Tick:
  - A marked enemy freezing its own motion belongs to an enemy revision that is
    not part of this model. `update` and `animate` receive the enemy's
    `isKiller` mark, so a rule can freeze a marked enemy. The canvas sprite step
    is called with the mark just set.
- Players.NewPlayer: the radius 25 and the speed 70 are constants (`Players.Radius`,
  `Players.Speed`), not record fields. Nothing in the class ever assigns them,
  so "the update never changes the radius" holds by construction.

=== FILE: angles.dfy ===
/** `deg180To360`: turns an angle in degrees as `atan2` reports it, in
    (-180, 180], into the clockwise [0, 360) convention by adding a full turn to
    negative angles. */
module Angles {
  import opened Geometry

  const FullTurn: real := 360.0

  /** `180 + 180 - Math.abs(degrees)` for a negative angle, the angle itself
      otherwise. */
  function Deg180To360(d: real): (r: real)
    ensures r - d == 0.0 || r - d == FullTurn
    ensures d < 0.0 ==> r == d + FullTurn
    ensures d >= 0.0 ==> r == d
    ensures 0.0 <= r < FullTurn <==> -FullTurn <= d < FullTurn
  {
    if d < 0.0 then 180.0 + 180.0 - Abs(d) else d
  }

  /** The range `atan2` produces, in degrees, lands in one turn. */
  lemma AtanRangeLandsInTurn(d: real)
    requires -180.0 <= d <= 180.0
    ensures 0.0 <= Deg180To360(d) < FullTurn
  {}

  /** Normalising twice is the same as normalising once exactly for the angles
      that one full turn brings to a non-negative value. */
  lemma IdempotentIff(d: real)
    ensures Deg180To360(Deg180To360(d)) == Deg180To360(d) <==> d >= -FullTurn
  {
    if d < -FullTurn {
      assert Deg180To360(Deg180To360(d)) == d + 2.0 * FullTurn;
    }
  }

  /** On [-360, 360) the result is the one angle in [0, 360) that differs from
      the input by a whole number (0 or 1) of turns. */
  lemma CanonicalRepresentative(d: real, x: real)
    requires -FullTurn <= d < FullTurn
    requires 0.0 <= x < FullTurn && (x - d == 0.0 || x - d == FullTurn)
    ensures x == Deg180To360(d)
  {}
}

=== FILE: canvas.dfy ===
/** One animation frame of the game (`anim` in the canvas component), with the
    game objects abstracted away: enemies, the player and the headquarters'
    squares are type parameters, and everything the frame does to them is a
    parameter in `Rules`. What is modelled is the control logic: the order of
    the per-enemy work, the sweep over enemy pairs, the game-over latch and the
    killer mark, the headquarters flags and the gating of the player. */
module Canvas {
  import opened Options

  /** The operations one frame applies, each standing for code of the game
      objects. `update` and `animate` also receive the enemy's `isKiller` mark,
      which the enemy's own methods can read:
      `update`     — `updateEnemyState`, the wall handler and the bounces off
                     every headquarters' square, with the frame's time step;
      `collide`    — `World.checkCollisionBetweenCircles` for two enemies;
      `resolve`    — `enemyCollisionHandler`, which changes both enemies;
      `hitsPlayer` — `World.checkCollisionBetweenCircles` for an enemy and
                     the player;
      `animate`    — `updateFrame`, the enemy's sprite step;
      `overlaps`   — `World.checkCollisionCircleToRect` for an enemy and a
                     headquarters' square;
      `movePlayer` — `updatePlayerState` followed by the player's wall
                     handler. */
  datatype Rules<!E, !P, !H> = Rules(
    update: (E, bool) -> E,
    collide: (E, E) -> bool,
    resolve: (E, E) -> (E, E),
    hitsPlayer: (E, P) -> bool,
    animate: (E, bool) -> E,
    overlaps: (E, H) -> bool,
    movePlayer: P -> P)

  /** The state one frame reads and writes. `killer[i]` is the `isKiller` mark
      of enemy i and `flags[h]` the `isColliding` flag of headquarters h. */
  datatype World<E, P, H> = World(
    enemies: seq<E>,
    killer: seq<bool>,
    player: P,
    isGameOver: bool,
    heads: seq<H>,
    flags: seq<bool>)

  // ---------------------------------------------------------------------------
  // The pair sweep

  /** The pairs (i, j), j = i+1, ..., `upTo` - 1, that the inner loop for enemy
      i visits before reaching `upTo`. */
  function RowPairs(i: int, upTo: int): seq<(int, int)>
    requires i < upTo
  {
    seq(upTo - i - 1, k => (i, i + 1 + k))
  }

  /** The pairs the sweep over `n` enemies has visited once the outer loop has
      finished the first `i` enemies. */
  function SweptPairs(i: nat, n: nat): seq<(int, int)>
    requires i <= n
  {
    if i == 0 then [] else SweptPairs(i - 1, n) + RowPairs(i - 1, n)
  }

  /** Every pair the complete sweep over `n` enemies visits, in visiting order. */
  function AllPairs(n: nat): seq<(int, int)> {
    SweptPairs(n, n)
  }

  /** Lexicographic order on index pairs. */
  predicate PairLess(p: (int, int), q: (int, int)) {
    p.0 < q.0 || (p.0 == q.0 && p.1 < q.1)
  }

  predicate StrictlySorted(ps: seq<(int, int)>) {
    forall a, b :: 0 <= a < b < |ps| ==> PairLess(ps[a], ps[b])
  }

  /** The sweep visits exactly the pairs (i, j) with i < j among the first `i`
      enemies' rows: every one of them, and no pair of an enemy with itself. */
  lemma {:induction false} SweptPairsMembers(i: nat, n: nat)
    requires i <= n
    ensures forall p: (int, int) :: p in SweptPairs(i, n) <==> 0 <= p.0 < i && p.0 < p.1 < n
  {
    if i > 0 {
      SweptPairsMembers(i - 1, n);
      var row := RowPairs(i - 1, n);
      forall p: (int, int) | 0 <= p.0 < i && p.0 < p.1 < n && p.0 == i - 1
        ensures p in row
      {
        assert row[p.1 - i] == p;
      }
    }
  }

  /** Pairs are visited in strictly increasing lexicographic order, so none is
      visited twice. */
  lemma {:induction false} SweptPairsSorted(i: nat, n: nat)
    requires i <= n
    ensures StrictlySorted(SweptPairs(i, n))
  {
    if i > 0 {
      SweptPairsSorted(i - 1, n);
      SweptPairsMembers(i - 1, n);
      var before := SweptPairs(i - 1, n);
      var row := RowPairs(i - 1, n);
      forall a | 0 <= a < |before|
        ensures before[a].0 < i - 1
      {
        assert before[a] in before;
      }
      assert SweptPairs(i, n) == before + row;
    }
  }

  /** The complete sweep visits each unordered pair of distinct enemies exactly
      once, as (smaller index, larger index). */
  lemma AllPairsExactlyOnce(n: nat)
    ensures forall p: (int, int) :: p in AllPairs(n) <==> 0 <= p.0 < p.1 < n
    ensures forall a, b :: 0 <= a < b < |AllPairs(n)| ==> AllPairs(n)[a] != AllPairs(n)[b]
  {
    SweptPairsMembers(n, n);
    SweptPairsSorted(n, n);
  }

  /** The inner loop for enemy i from `j` on, as a function: for each later
      enemy j in turn, if the two collide, both are replaced by what `resolve`
      makes of them. Enemies before i are never touched. */
  function SweepRow<E, P, H>(rules: Rules<E, P, H>, es: seq<E>, i: nat, j: nat): (r: seq<E>)
    requires i < j <= |es|
    ensures |r| == |es|
    ensures forall k :: 0 <= k < i ==> r[k] == es[k]
    decreases |es| - j
  {
    if j == |es| then es
    else
      var next :=
        if rules.collide(es[i], es[j]) then
          var resolved := rules.resolve(es[i], es[j]);
          es[i := resolved.0][j := resolved.1]
        else es;
      SweepRow(rules, next, i, j + 1)
  }

  /** Enemy i's own step before its check against the player: `update` it
      with its mark `killer`, then sweep its row. */
  function RowStep<E, P, H>(rules: Rules<E, P, H>, es: seq<E>, i: nat, killer: bool): (r: seq<E>)
    requires i < |es|
    ensures |r| == |es|
    ensures forall k :: 0 <= k < i ==> r[k] == es[k]
  {
    SweepRow(rules, es[i := rules.update(es[i], killer)], i, i + 1)
  }

  /** Enemy i's turn took the list `before` to `after`: with its mark `mark`
      as it stood at the start of the turn, `RowStep` left the enemy as `seen`
      for the check against the player, and `animate` then gave it the mark
      `kill` as it stood after the check. */
  ghost predicate Turn<E, P, H>(rules: Rules<E, P, H>, before: seq<E>, i: nat, mark: bool,
                                seen: E, kill: bool, after: seq<E>)
  {
    i < |before| &&
    seen == RowStep(rules, before, i, mark)[i] &&
    after == RowStep(rules, before, i, mark)[i := rules.animate(seen, kill)]
  }

  /** The first |checked| turns of a frame that started from `s`: `rows`
      holds the list before each turn and the current list `enemies`, each
      turn is a `Turn` with the marks as they stand now, and every enemy that
      has had its turn holds its checked state after `animate`. */
  ghost predicate Turns<E, P, H>(rules: Rules<E, P, H>, s: World<E, P, H>, rows: seq<seq<E>>,
                                 checked: seq<E>, killer: seq<bool>, enemies: seq<E>)
  {
    |rows| == |checked| + 1 && |checked| <= |s.killer| &&
    |killer| == |s.killer| && |enemies| == |s.killer| &&
    rows[0] == s.enemies && rows[|checked|] == enemies &&
    (forall k :: 0 <= k < |checked| ==>
       Turn(rules, rows[k], k, s.killer[k], checked[k], killer[k], rows[k + 1])) &&
    (forall k :: 0 <= k < |checked| ==> enemies[k] == rules.animate(checked[k], killer[k]))
  }

  /** One more turn, of enemy i = |checked| with its mark still as in `s`,
      extends `Turns`; a hit marks enemy i and no enemy before it. */
  lemma TurnsStep<E, P, H>(rules: Rules<E, P, H>, s: World<E, P, H>, rows: seq<seq<E>>,
                           checked: seq<E>, killer: seq<bool>, enemies: seq<E>,
                           after: seq<E>, seen: E, hit: bool)
    requires Turns(rules, s, rows, checked, killer, enemies)
    requires |checked| < |s.killer| && killer[|checked|] == s.killer[|checked|]
    requires Turn(rules, enemies, |checked|, s.killer[|checked|], seen, s.killer[|checked|] || hit, after)
    requires |after| == |enemies| && after[|checked|] == rules.animate(seen, s.killer[|checked|] || hit)
    requires forall k :: 0 <= k < |checked| ==> after[k] == enemies[k]
    ensures Turns(rules, s, rows + [after], checked + [seen],
                  if hit then killer[|checked| := true] else killer, after)
  {
    var i := |checked|;
    var rows', checked' := rows + [after], checked + [seen];
    var killer' := if hit then killer[i := true] else killer;
    forall k | 0 <= k <= i
      ensures Turn(rules, rows'[k], k, s.killer[k], checked'[k], killer'[k], rows'[k + 1])
    {
      if k < i {
        assert rows'[k] == rows[k] && rows'[k + 1] == rows[k + 1];
        assert checked'[k] == checked[k] && killer'[k] == killer[k];
      } else {
        assert rows'[k] == enemies && rows'[k + 1] == after;
        assert checked'[k] == seen && killer'[k] == (s.killer[i] || hit);
      }
    }
    forall k | 0 <= k <= i
      ensures after[k] == rules.animate(checked'[k], killer'[k])
    {
      if k < i {
        assert checked'[k] == checked[k] && killer'[k] == killer[k];
      }
    }
  }

  /** The inner loop of `anim` for enemy i: it computes `SweepRow` and
      visits the pairs of row i in order. */
  method SweepLoop<E, P, H>(rules: Rules<E, P, H>, es: seq<E>, i: nat)
    returns (r: seq<E>, pairs: seq<(int, int)>)
    requires i < |es|
    ensures r == SweepRow(rules, es, i, i + 1)
    ensures pairs == RowPairs(i, |es|)
  {
    r := es;
    pairs := [];
    var j := i + 1;
    while j < |es|
      invariant i + 1 <= j <= |es| && |r| == |es|
      invariant pairs == RowPairs(i, j)
      invariant SweepRow(rules, r, i, j) == SweepRow(rules, es, i, i + 1)
    {
      pairs := pairs + [(i, j)];
      if rules.collide(r[i], r[j]) {
        var resolved := rules.resolve(r[i], r[j]);
        r := r[i := resolved.0][j := resolved.1];
      }
      j := j + 1;
    }
  }

  // ---------------------------------------------------------------------------
  // Game over and the killer mark

  /** No enemy is marked before the game is over, and never more than one. */
  predicate KillerConsistent(isGameOver: bool, killer: seq<bool>) {
    (forall a, b :: 0 <= a < b < |killer| ==> !(killer[a] && killer[b])) &&
    (!isGameOver ==> forall k :: 0 <= k < |killer| ==> !killer[k])
  }

  /** Marking enemy k as the killer of a game that was not over keeps the
      marks consistent once the game is over. */
  lemma MarkKiller(killer: seq<bool>, k: int)
    requires KillerConsistent(false, killer) && 0 <= k < |killer|
    ensures KillerConsistent(true, killer[k := true])
  {}

  /** The game-over latch and the killer mark once the enemies in `checked`
      have been checked against the player: the game is over exactly when it
      already was or one of them touches the player; `marked` is the enemy
      this frame marked, the first one touching the player of a game that was
      not over; and the marks are those of `s` plus that one. */
  ghost predicate Marks<E, P, H>(hitsPlayer: (E, P) -> bool, s: World<E, P, H>, checked: seq<E>,
                                 over: bool, killer: seq<bool>, marked: Option<nat>)
  {
    (over <==> s.isGameOver || exists k :: 0 <= k < |checked| && hitsPlayer(checked[k], s.player)) &&
    (marked.Some? <==> !s.isGameOver && over) &&
    (marked.Some? ==>
       marked.value < |checked| && marked.value < |s.killer| && hitsPlayer(checked[marked.value], s.player) &&
       forall k :: 0 <= k < marked.value ==> !hitsPlayer(checked[k], s.player)) &&
    (marked.None? ==> killer == s.killer) &&
    (marked.Some? ==> killer == s.killer[marked.value := true]) &&
    (KillerConsistent(s.isGameOver, s.killer) ==> KillerConsistent(over, killer))
  }

  /** Checking one more enemy, `seen`, keeps `Marks`: on a hit of a game that
      is still on, the game ends and that enemy is marked. */
  lemma MarksStep<E, P, H>(hitsPlayer: (E, P) -> bool, s: World<E, P, H>, checked: seq<E>,
                           over: bool, killer: seq<bool>, marked: Option<nat>, seen: E, hit: bool)
    requires Marks(hitsPlayer, s, checked, over, killer, marked)
    requires |checked| < |s.killer| == |killer|
    requires hit <==> !over && hitsPlayer(seen, s.player)
    ensures hit ==> Marks(hitsPlayer, s, checked + [seen], true, killer[|checked| := true], Some(|checked|))
    ensures !hit ==> Marks(hitsPlayer, s, checked + [seen], over, killer, marked)
  {
    var i := |checked|;
    var c := checked + [seen];
    assert forall k :: 0 <= k < i ==> c[k] == checked[k];
    if hit {
      assert c[i] == seen;
      if KillerConsistent(s.isGameOver, s.killer) {
        MarkKiller(killer, i);
      }
    } else if hitsPlayer(seen, s.player) {
      assert over;
    }
  }

  // ---------------------------------------------------------------------------
  // Headquarters

  /** `enemies.find(en => overlaps(en, head))`, as an index: the first enemy
      overlapping the square, if any. */
  function FindOverlapping<E, H>(enemies: seq<E>, head: H, overlaps: (E, H) -> bool): (r: Option<nat>)
    ensures r.Some? ==> r.value < |enemies| && overlaps(enemies[r.value], head)
    ensures r.Some? ==> forall k :: 0 <= k < r.value ==> !overlaps(enemies[k], head)
    ensures r.None? <==> forall k :: 0 <= k < |enemies| ==> !overlaps(enemies[k], head)
    decreases |enemies|
  {
    if |enemies| == 0 then None
    else if overlaps(enemies[0], head) then Some(0)
    else
      match FindOverlapping(enemies[1..], head, overlaps)
      case None => None
      case Some(k) => Some(k + 1)
  }

  /** `head.isColliding = !!found` for every headquarters, in order. */
  function HeadquartersFlags<E, H>(enemies: seq<E>, heads: seq<H>, overlaps: (E, H) -> bool): (r: seq<bool>)
    ensures |r| == |heads|
    ensures forall h :: 0 <= h < |heads| ==>
              (r[h] <==> exists k :: 0 <= k < |enemies| && overlaps(enemies[k], heads[h]))
  {
    seq(|heads|, h requires 0 <= h < |heads| => FindOverlapping(enemies, heads[h], overlaps).Some?)
  }

  // ---------------------------------------------------------------------------
  // One frame

  /** The body of `anim`'s loop for enemy i: update it, sweep its row, check
      it against the player unless the game is already over, and step its
      sprite with the mark it then has. `hit` says whether the check found the
      player. */
  method TakeTurn<E, P(==), H>(rules: Rules<E, P, H>, es: seq<E>, i: nat, mark: bool, player: P, over: bool)
    returns (after: seq<E>, seen: E, row: seq<(int, int)>, hit: bool)
    requires i < |es|
    ensures row == RowPairs(i, |es|)
    ensures hit <==> !over && rules.hitsPlayer(seen, player)
    ensures Turn(rules, es, i, mark, seen, mark || hit, after)
    ensures |after| == |es| && after[i] == rules.animate(seen, mark || hit)
    ensures forall k :: 0 <= k < i ==> after[k] == es[k]
  {
    var swept;
    swept, row := SweepLoop(rules, es[i := rules.update(es[i], mark)], i);
    seen := swept[i];
    hit := !over && rules.hitsPlayer(seen, player);
    after := swept[i := rules.animate(seen, mark || hit)];
  }

  /** The enemies' part of `anim(timeStamp)`: for each enemy i in turn,
      update it, resolve its collisions with every later enemy j, check it
      against the player unless the game is already over, and step its sprite.
      `visited` lists the pairs the inner loop checked, in order; `rows[i]` is
      the list of enemies when enemy i's turn comes and `rows[n]` the final
      list; `checked[i]` is enemy i as it stood when it was checked against the
      player, after its own row of the sweep; `marked` is the enemy this frame
      marked as the killer, if any. */
  method RunEnemies<E, P(==), H>(rules: Rules<E, P, H>, s: World<E, P, H>)
    returns (enemies: seq<E>, killer: seq<bool>, over: bool,
             visited: seq<(int, int)>, rows: seq<seq<E>>, checked: seq<E>, marked: Option<nat>)
    requires |s.killer| == |s.enemies|
    ensures |enemies| == |s.enemies| && |killer| == |enemies| && |checked| == |enemies|
    ensures visited == AllPairs(|s.enemies|)
    ensures |rows| == |s.enemies| + 1 && rows[0] == s.enemies && rows[|s.enemies|] == enemies
    ensures forall i :: 0 <= i < |checked| ==>
              Turn(rules, rows[i], i, s.killer[i], checked[i], killer[i], rows[i + 1])
    ensures forall i :: 0 <= i < |checked| ==> enemies[i] == rules.animate(checked[i], killer[i])
    ensures over <==>
              s.isGameOver || exists i :: 0 <= i < |checked| && rules.hitsPlayer(checked[i], s.player)
    ensures marked.Some? <==> !s.isGameOver && over
    ensures marked.Some? ==>
              marked.value < |checked| && rules.hitsPlayer(checked[marked.value], s.player) &&
              forall k :: 0 <= k < marked.value ==> !rules.hitsPlayer(checked[k], s.player)
    ensures marked.None? ==> killer == s.killer
    ensures marked.Some? ==> killer == s.killer[marked.value := true]
    ensures KillerConsistent(s.isGameOver, s.killer) ==> KillerConsistent(over, killer)
  {
    var n := |s.enemies|;
    enemies := s.enemies;
    killer := s.killer;
    over := s.isGameOver;
    visited := [];
    rows := [s.enemies];
    checked := [];
    marked := None;
    var i := 0;
    while i < n
      invariant 0 <= i <= n
      invariant |enemies| == n && |killer| == n && |checked| == i
      invariant visited == SweptPairs(i, n)
      invariant forall k :: i <= k < n ==> killer[k] == s.killer[k]
      invariant Turns(rules, s, rows, checked, killer, enemies)
      invariant Marks(rules.hitsPlayer, s, checked, over, killer, marked)
    {
      var after, seen, row, hit := TakeTurn(rules, enemies, i, killer[i], s.player, over);
      TurnsStep(rules, s, rows, checked, killer, enemies, after, seen, hit);
      enemies := after;
      visited := visited + row;
      assert visited == SweptPairs(i + 1, n);
      MarksStep(rules.hitsPlayer, s, checked, over, killer, marked, seen, hit);
      checked := checked + [seen];
      if hit {
        over := true;
        killer := killer[i := true];
        marked := Some(i);
      }
      rows := rows + [enemies];
      i := i + 1;
    }
  }

  /** `anim(timeStamp)`: the enemies' turns (`RunEnemies`), then the
      headquarters' flags from the enemies' final positions, and the player
      moved only if the game is still on. */
  method Tick<E, P(==), H>(rules: Rules<E, P, H>, s: World<E, P, H>)
    returns (r: World<E, P, H>, visited: seq<(int, int)>, rows: seq<seq<E>>, checked: seq<E>, marked: Option<nat>)
    requires |s.killer| == |s.enemies|
    ensures |r.enemies| == |s.enemies| && |r.killer| == |r.enemies| && |checked| == |r.enemies|
    ensures visited == AllPairs(|s.enemies|)
    ensures |rows| == |s.enemies| + 1 && rows[0] == s.enemies && rows[|s.enemies|] == r.enemies
    ensures forall i :: 0 <= i < |checked| ==>
              Turn(rules, rows[i], i, s.killer[i], checked[i], r.killer[i], rows[i + 1])
    ensures forall i :: 0 <= i < |checked| ==> r.enemies[i] == rules.animate(checked[i], r.killer[i])
    ensures r.isGameOver <==>
              s.isGameOver || exists i :: 0 <= i < |checked| && rules.hitsPlayer(checked[i], s.player)
    ensures marked.Some? <==> !s.isGameOver && r.isGameOver
    ensures marked.Some? ==>
              marked.value < |checked| && rules.hitsPlayer(checked[marked.value], s.player) &&
              forall k :: 0 <= k < marked.value ==> !rules.hitsPlayer(checked[k], s.player)
    ensures marked.None? ==> r.killer == s.killer
    ensures marked.Some? ==> r.killer == s.killer[marked.value := true]
    ensures KillerConsistent(s.isGameOver, s.killer) ==> KillerConsistent(r.isGameOver, r.killer)
    ensures r.isGameOver ==> r.player == s.player
    ensures !r.isGameOver ==> r.player == rules.movePlayer(s.player)
    ensures r.heads == s.heads && |r.flags| == |s.heads|
    ensures forall h :: 0 <= h < |r.heads| ==>
              (r.flags[h] <==> exists k :: 0 <= k < |r.enemies| && rules.overlaps(r.enemies[k], r.heads[h]))
  {
    var enemies, killer, over;
    enemies, killer, over, visited, rows, checked, marked := RunEnemies(rules, s);
    var flags := HeadquartersFlags(enemies, s.heads, rules.overlaps);
    var player := if over then s.player else rules.movePlayer(s.player);
    r := World(enemies, killer, player, over, s.heads, flags);
  }
}

=== FILE: circles.dfy ===
/** The wall handler shared by every moving circle (`Circle.wallsCollisionHandler`,
    repeated verbatim as `Enemy.wallsCollisionHandler`): a circle that pokes out
    of the field is put back against the wall it crossed, and the velocity
    component across that wall is turned inwards and amplified by the
    restitution factor. */
module Circles {
  import opened Geometry

  /** The state of a moving circle the handler reads and writes. */
  datatype Body = Body(position: Point, velocity: Point, radius: real)

  /** The restitution factor of a wall bounce: above 1, so each bounce speeds
      the circle up by a fifth. */
  const Restitution: real := 1.2

  /** The outcome of the handler on one axis: the new coordinate and velocity. */
  datatype Axis = Axis(pos: real, vel: real)

  /** One axis of the handler, against the walls at 0 and `limit`. The low wall
      is checked first, so it wins when the field is narrower than the circle. */
  function BounceAxis(pos: real, vel: real, radius: real, limit: real): (a: Axis)
    ensures pos < radius ==>
              a.pos == radius && a.vel >= 0.0 && Abs(a.vel) == Restitution * Abs(vel)
    ensures radius <= pos && pos > limit - radius ==>
              a.pos == limit - radius && a.vel <= 0.0 && Abs(a.vel) == Restitution * Abs(vel)
    ensures radius <= pos <= limit - radius ==> a == Axis(pos, vel)
  {
    if pos < radius then Axis(radius, Abs(vel) * Restitution)
    else if pos > limit - radius then Axis(limit - radius, -Abs(vel) * Restitution)
    else Axis(pos, vel)
  }

  /** `wallsCollisionHandler(width, height)`: the x axis against the width and,
      independently, the y axis against the height. The radius never changes. */
  function WallsCollision(b: Body, width: real, height: real): (r: Body)
    ensures r.radius == b.radius
    ensures var ax := BounceAxis(b.position.x, b.velocity.x, b.radius, width);
            r.position.x == ax.pos && r.velocity.x == ax.vel
    ensures var ay := BounceAxis(b.position.y, b.velocity.y, b.radius, height);
            r.position.y == ay.pos && r.velocity.y == ay.vel
  {
    var ax := BounceAxis(b.position.x, b.velocity.x, b.radius, width);
    var ay := BounceAxis(b.position.y, b.velocity.y, b.radius, height);
    Body(Point(ax.pos, ay.pos), Point(ax.vel, ay.vel), b.radius)
  }

  /** The centre may sit anywhere from one radius off the low wall to one radius
      off the high wall. */
  predicate Inside(b: Body, width: real, height: real) {
    b.radius <= b.position.x <= width - b.radius &&
    b.radius <= b.position.y <= height - b.radius
  }

  /** When the field is at least one diameter wide and high, the handler always
      leaves the circle inside it. */
  lemma WallsKeepInside(b: Body, width: real, height: real)
    requires width >= 2.0 * b.radius && height >= 2.0 * b.radius
    ensures Inside(WallsCollision(b, width, height), width, height)
  {}

  /** A circle already inside the field is left exactly as it was, velocity
      included; outside, the handler always changes the position. */
  lemma InsideUnchangedIff(b: Body, width: real, height: real)
    ensures WallsCollision(b, width, height) == b <==> Inside(b, width, height)
  {}

  /** Under the size preconditions, handling the walls twice is the same as
      handling them once. */
  lemma WallsIdempotent(b: Body, width: real, height: real)
    requires width >= 2.0 * b.radius && height >= 2.0 * b.radius
    ensures WallsCollision(WallsCollision(b, width, height), width, height)
            == WallsCollision(b, width, height)
  {
    WallsKeepInside(b, width, height);
    InsideUnchangedIff(WallsCollision(b, width, height), width, height);
  }

  /** The x outcome depends on nothing of the y axis and the height, and the y
      outcome on nothing of the x axis and the width. */
  lemma AxesIndependent(b1: Body, b2: Body, w1: real, h1: real, w2: real, h2: real)
    requires b1.radius == b2.radius
    ensures b1.position.x == b2.position.x && b1.velocity.x == b2.velocity.x && w1 == w2 ==>
              WallsCollision(b1, w1, h1).position.x == WallsCollision(b2, w2, h2).position.x &&
              WallsCollision(b1, w1, h1).velocity.x == WallsCollision(b2, w2, h2).velocity.x
    ensures b1.position.y == b2.position.y && b1.velocity.y == b2.velocity.y && h1 == h2 ==>
              WallsCollision(b1, w1, h1).position.y == WallsCollision(b2, w2, h2).position.y &&
              WallsCollision(b1, w1, h1).velocity.y == WallsCollision(b2, w2, h2).velocity.y
  {}
}

=== FILE: enemies.dfy ===
/** The enemy balls: their three sizes, where they spawn, how their speed decays,
    how one tick moves them, and the elastic impulse exchanged when two of them
    touch. Random numbers and the square root are parameters. The angle the game
    keeps is not stored: each tick rebuilds the velocity from it as the
    `Heading` of the velocity itself, and its other readers, the drawing and
    the rectangle bounce, are left out of the model. */
module Enemies {
  import opened Options
  import opened Geometry
  import opened Circles
  import Grid

  // ---------------------------------------------------------------------------
  // Sizes

  const SmallRadius: real := 20.0
  const MediumRadius: real := 25.0
  const LargeRadius: real := 30.0

  /** `EnemySizes` picked by a random number: below 34 small, below 67 medium,
      anything else large. */
  function RadiusFor(randomSize: int): (r: real)
    ensures r == SmallRadius || r == MediumRadius || r == LargeRadius
  {
    if randomSize < 34 then SmallRadius
    else if randomSize < 67 then MediumRadius
    else LargeRadius
  }

  /** A larger random number never gives a smaller enemy. */
  lemma RadiusMonotone(a: int, b: int)
    requires a <= b
    ensures RadiusFor(a) <= RadiusFor(b)
  {}

  /** How many of the numbers 1..n pick radius `r`. */
  function CountRadius(n: nat, r: real): nat {
    if n == 0 then 0
    else CountRadius(n - 1, r) + (if RadiusFor(n) == r then 1 else 0)
  }

  /** The running counts of the three sizes over 1..n. */
  lemma {:induction false} CountRadiusPrefix(n: nat)
    ensures CountRadius(n, SmallRadius) == (if n <= 33 then n else 33)
    ensures CountRadius(n, MediumRadius) == (if n <= 33 then 0 else if n <= 66 then n - 33 else 33)
    ensures CountRadius(n, LargeRadius) == (if n <= 66 then 0 else n - 66)
  {
    if n > 0 {
      CountRadiusPrefix(n - 1);
    }
  }

  /** `random(99, 1)` draws from 1..99, and each size owns exactly 33 of those
      numbers: the three sizes are equally likely. */
  lemma SizesEquallyLikely()
    ensures CountRadius(99, SmallRadius) == 33
    ensures CountRadius(99, MediumRadius) == 33
    ensures CountRadius(99, LargeRadius) == 33
  {
    CountRadiusPrefix(99);
  }

  /** `typeSize()`: 1, 2 or 3 for the three radii; any other radius has no type
      (the source falls off the end and yields `undefined`). */
  function TypeSize(radius: real): (t: Option<int>)
    ensures t.Some? <==> radius == SmallRadius || radius == MediumRadius || radius == LargeRadius
    ensures t.Some? ==> 1 <= t.value <= 3
  {
    if radius == SmallRadius then Some(1)
    else if radius == MediumRadius then Some(2)
    else if radius == LargeRadius then Some(3)
    else None
  }

  /** The radius of each type: the inverse of `TypeSize`. */
  function RadiusOfType(t: int): real
    requires 1 <= t <= 3
  {
    if t == 1 then SmallRadius else if t == 2 then MediumRadius else LargeRadius
  }

  /** `TypeSize` and `RadiusOfType` are inverse bijections between the three
      radii and the types 1..3, so every enemy gets exactly one of the three
      sprites. */
  lemma TypeSizeRoundTrip(radius: real, t: int)
    ensures 1 <= t <= 3 ==> TypeSize(RadiusOfType(t)) == Some(t)
    ensures TypeSize(radius) == Some(t) ==> RadiusOfType(t) == radius
  {}

  /** Every radius the constructor can pick has a type. */
  lemma EveryEnemyHasType(randomSize: int)
    ensures TypeSize(RadiusFor(randomSize)).Some?
  {}

  // ---------------------------------------------------------------------------
  // Mass

  /** `Math.PI` as the double it is. */
  const JsPi: real := 3.141592653589793

  function Cube(x: real): real {
    x * x * x
  }

  /** `(4 / 3) * Math.PI * (radius / 10) ** 3`: the volume of a ball of the
      radius measured in tenths. */
  function Mass(radius: real): (m: real)
    ensures radius > 0.0 ==> m > 0.0
  {
    CubePos(radius / 10.0);
    (4.0 / 3.0) * JsPi * Cube(radius / 10.0)
  }

  /** A bigger ball is heavier. */
  lemma MassIncreasing(r1: real, r2: real)
    requires 0.0 < r1 < r2
    ensures Mass(r1) < Mass(r2)
  {
    CubeStrictMono(r1 / 10.0, r2 / 10.0);
  }

  lemma CubePos(x: real)
    ensures x > 0.0 ==> Cube(x) > 0.0
  {
    if x > 0.0 {
      MulPos3(x, x, x);
    }
  }

  /** a³ < b³ on positive reals, through a·a·a < a·a·b < a·b·b < b·b·b. */
  lemma CubeStrictMono(a: real, b: real)
    requires 0.0 < a < b
    ensures Cube(a) < Cube(b)
  {
    MulPos3(a, a, b - a);
    MulPos3(a, b, b - a);
    MulPos3(b, b, b - a);
  }

  lemma MulPos3(a: real, b: real, c: real)
    requires a > 0.0 && b > 0.0 && c > 0.0
    ensures a * b * c > 0.0
  {
    MulPos(a, b);
    MulPos(a * b, c);
  }

  // ---------------------------------------------------------------------------
  // Spawn position

  /** The centre of 1-based cell `c` in a grid of cells `cw` wide and `ch` high. */
  function CellCentre(c: Grid.Cell, cw: real, ch: real): Point {
    Point(c.col as real * cw - cw / 2.0, c.row as real * ch - ch / 2.0)
  }

  /** The constructor's placement: place number `place` is split by `rows` in
      column-major order, exactly as `getCellByNumber` does in vertical mode,
      and the enemy is put at the centre of that cell of a `cols` by `rows`
      division of the field. A zero row or column count divides by zero and
      gives a non-finite position, `None` here. */
  function SpawnPosition(place: int, rows: int, cols: int, width: real, height: real): (r: Option<Point>)
    ensures r.None? <==> rows == 0 || cols == 0
  {
    if rows == 0 || cols == 0 then None
    else
      match Grid.CellByNumber(place, rows, cols, true)
      case None => None
      case Some(c) => Some(CellCentre(c, width / cols as real, height / rows as real))
  }

  /** Every place of the grid spawns its enemy strictly inside the field, in
      the interior of its own cell. */
  lemma SpawnInsideField(place: int, rows: int, cols: int, width: real, height: real)
    requires 1 <= rows && 1 <= cols && 1 <= place <= rows * cols
    requires width > 0.0 && height > 0.0
    ensures var r := SpawnPosition(place, rows, cols, width, height);
            r.Some? && 0.0 < r.value.x < width && 0.0 < r.value.y < height
    ensures var r := SpawnPosition(place, rows, cols, width, height);
            var c := Grid.CellByNumber(place, rows, cols, true).value;
            var cw := width / cols as real;
            var ch := height / rows as real;
            (c.col - 1) as real * cw < r.value.x < c.col as real * cw &&
            (c.row - 1) as real * ch < r.value.y < c.row as real * ch
  {
    CentreInCell(Grid.CellByNumber(place, rows, cols, true).value, rows, cols, width, height);
  }

  /** The centre of a cell of the grid lies inside that cell and inside the
      field. */
  lemma CentreInCell(c: Grid.Cell, rows: int, cols: int, width: real, height: real)
    requires Grid.InGrid(c, rows, cols) && width > 0.0 && height > 0.0
    ensures var cw := width / cols as real;
            var ch := height / rows as real;
            var p := CellCentre(c, cw, ch);
            0.0 < p.x < width && 0.0 < p.y < height &&
            (c.col - 1) as real * cw < p.x < c.col as real * cw &&
            (c.row - 1) as real * ch < p.y < c.row as real * ch
  {
    var cw := width / cols as real;
    var ch := height / rows as real;
    DivMulCancel(width, cols as real);
    DivMulCancel(height, rows as real);
    CentreInside(c.col, cols, width, cw);
    CentreInside(c.row, rows, height, ch);
  }

  /** The enemy spawns at the very centre of its cell: on each axis it is as
      far from one wall of the cell as from the other. */
  lemma SpawnAtCellCentre(place: int, rows: int, cols: int, width: real, height: real)
    requires 1 <= rows && 1 <= cols && 1 <= place <= rows * cols
    ensures var r := SpawnPosition(place, rows, cols, width, height);
            var c := Grid.CellByNumber(place, rows, cols, true).value;
            var cw := width / cols as real;
            var ch := height / rows as real;
            r.Some? &&
            r.value.x - (c.col - 1) as real * cw == c.col as real * cw - r.value.x &&
            r.value.y - (c.row - 1) as real * ch == c.row as real * ch - r.value.y
  {
    var c := Grid.CellByNumber(place, rows, cols, true).value;
    SlotMidpoint(c.col, width / cols as real);
    SlotMidpoint(c.row, height / rows as real);
  }

  /** `k * c - c / 2` is the midpoint of slot k, from `(k - 1) * c` to `k * c`. */
  lemma SlotMidpoint(k: int, c: real)
    ensures k as real * c - c / 2.0 - (k - 1) as real * c == k as real * c - (k as real * c - c / 2.0)
  {
    assert (k - 1) as real * c == k as real * c - c;
  }

  /** The centre of slot k of n slots of size c spanning len lies strictly
      inside slot k and strictly inside (0, len). */
  lemma CentreInside(k: int, n: int, len: real, c: real)
    requires 1 <= k <= n && len > 0.0 && c * (n as real) == len
    ensures 0.0 < k as real * c - c / 2.0 < len
    ensures (k - 1) as real * c < k as real * c - c / 2.0 < k as real * c
  {
    if c <= 0.0 {
      MulNonNeg(-c, n as real);
      assert false;
    }
    MulNonNeg(c, (n - k) as real);
    MulNonNeg(c, (k - 1) as real);
  }

  /** Different places of the grid spawn at different positions, so no two
      enemies of one wave start on top of each other. */
  lemma SpawnDistinct(p1: int, p2: int, rows: int, cols: int, width: real, height: real)
    requires 1 <= rows && 1 <= cols
    requires 1 <= p1 <= rows * cols && 1 <= p2 <= rows * cols && p1 != p2
    requires width > 0.0 && height > 0.0
    ensures SpawnPosition(p1, rows, cols, width, height) != SpawnPosition(p2, rows, cols, width, height)
  {
    Grid.CellInjective(p1, p2, rows, cols, true);
    var c1 := Grid.CellByNumber(p1, rows, cols, true).value;
    var c2 := Grid.CellByNumber(p2, rows, cols, true).value;
    DivPos(width, cols as real);
    DivPos(height, rows as real);
    CentresDistinct(c1, c2, width / cols as real, height / rows as real);
  }

  /** Distinct cells of a grid of non-degenerate cells have distinct centres. */
  lemma CentresDistinct(c1: Grid.Cell, c2: Grid.Cell, cw: real, ch: real)
    requires c1 != c2 && cw != 0.0 && ch != 0.0
    ensures CellCentre(c1, cw, ch) != CellCentre(c2, cw, ch)
  {
    if c1.col != c2.col {
      ProductNonZero((c1.col - c2.col) as real, cw);
    } else {
      ProductNonZero((c1.row - c2.row) as real, ch);
    }
  }

  lemma ProductNonZero(a: real, b: real)
    requires a != 0.0 && b != 0.0
    ensures a * b != 0.0
  {}

  lemma DivPos(a: real, b: real)
    requires a > 0.0 && b > 0.0
    ensures a / b > 0.0
  {}

  // ---------------------------------------------------------------------------
  // The enemy record

  /** An enemy: the moving circle, the speed it last computed, and its mass. */
  datatype Enemy = Enemy(body: Body, speed: real, mass: real)

  /** Every enemy starts at this speed. */
  const InitialSpeed: real := 100.0

  /** `a || b` on a finite number: `b` exactly when `a` is zero. */
  function OrElse(a: real, b: real): (r: real)
    ensures a != 0.0 ==> r == a
    ensures a == 0.0 ==> r == b
    ensures r != 0.0 || b == 0.0
  {
    if a != 0.0 then a else b
  }

  /** The vector the constructor aims along, from the spawn position to a random
      target; a zero component becomes 1, so the aim is never the zero vector. */
  function AimOffset(target: Point, position: Point): (v: Point)
    ensures v.x != 0.0 && v.y != 0.0
    ensures target.x != position.x ==> v.x == target.x - position.x
    ensures target.x == position.x ==> v.x == 1.0
    ensures target.y != position.y ==> v.y == target.y - position.y
    ensures target.y == position.y ==> v.y == 1.0
  {
    Point(OrElse(target.x - position.x, 1.0), OrElse(target.y - position.y, 1.0))
  }

  /** The constructor, given the spawn position, the random size number, the
      random target and the length `h` of the aim. */
  function NewEnemy(position: Point, randomSize: int, target: Point, h: real): (e: Enemy)
    requires IsHypot(h, AimOffset(target, position))
    ensures e.body.position == position
    ensures e.speed == InitialSpeed
    ensures e.body.radius == RadiusFor(randomSize) && TypeSize(e.body.radius).Some?
    ensures e.mass == Mass(e.body.radius) && e.mass > 0.0
    ensures IsHypot(e.speed, e.body.velocity)
  {
    var radius := RadiusFor(randomSize);
    HeadingFacts(AimOffset(target, position), h, InitialSpeed);
    Enemy(Body(position, Heading(AimOffset(target, position), h, InitialSpeed), radius),
          InitialSpeed, Mass(radius))
  }

  /** The new enemy sets off towards its target. */
  lemma NewEnemyAimsAtTarget(position: Point, randomSize: int, target: Point, h: real)
    requires IsHypot(h, AimOffset(target, position))
    ensures Aligned(NewEnemy(position, randomSize, target, h).body.velocity, AimOffset(target, position))
  {
    HeadingFacts(AimOffset(target, position), h, InitialSpeed);
  }

  // ---------------------------------------------------------------------------
  // Speed decay

  /** The speed above which an enemy slows down. */
  const CruiseSpeed: real := 200.0

  /** `deceleration()`: above cruise speed, lose 5% of the excess. */
  function Decelerate(s: real): (r: real)
    ensures s > CruiseSpeed ==> CruiseSpeed < r < s && r - CruiseSpeed == 0.95 * (s - CruiseSpeed)
    ensures s <= CruiseSpeed ==> r == s
  {
    if s > CruiseSpeed then s - (s - CruiseSpeed) * 0.05 else s
  }

  /** The speed after k ticks of deceleration. */
  function DecelerateTimes(s: real, k: nat): real {
    if k == 0 then s else Decelerate(DecelerateTimes(s, k - 1))
  }

  function Pow(b: real, k: nat): real {
    if k == 0 then 1.0 else b * Pow(b, k - 1)
  }

  /** A fast enemy's excess over cruise speed decays geometrically by 0.95 per
      tick and never reaches zero: it approaches cruise speed from above. */
  lemma {:induction false} DecelerateDecays(s: real, k: nat)
    requires s > CruiseSpeed
    ensures DecelerateTimes(s, k) - CruiseSpeed == Pow(0.95, k) * (s - CruiseSpeed)
    ensures CruiseSpeed < DecelerateTimes(s, k) <= s
  {
    if k > 0 {
      DecelerateDecays(s, k - 1);
      var p := Pow(0.95, k - 1);
      assert 0.95 * (p * (s - CruiseSpeed)) == (0.95 * p) * (s - CruiseSpeed);
    }
  }

  /** A speed at or below cruise speed is never changed. */
  lemma {:induction false} DecelerateFixed(s: real, k: nat)
    requires s <= CruiseSpeed
    ensures DecelerateTimes(s, k) == s
  {
    if k > 0 {
      DecelerateFixed(s, k - 1);
    }
  }

  // ---------------------------------------------------------------------------
  // One tick

  /** `updateEnemyState(deltaTime)`: the speed becomes the length `h` of the
      velocity, is decayed, and the velocity is rebuilt from the velocity's own
      angle and the new speed; then the enemy moves over the clamped step. */
  function UpdateEnemyState(e: Enemy, dt: real, h: real): (r: Enemy)
    requires IsHypot(h, e.body.velocity)
    ensures r.body.radius == e.body.radius && r.mass == e.mass
    ensures r.speed == Decelerate(h)
    ensures r.body.velocity == Heading(e.body.velocity, h, r.speed)
    ensures r.body.position == Add(e.body.position, Scale(r.body.velocity, Step(dt)))
  {
    var speed := Decelerate(h);
    var velocity := Heading(e.body.velocity, h, speed);
    Enemy(Body(Integrate(e.body.position, velocity, dt), velocity, e.body.radius), speed, e.mass)
  }

  /** After a tick the stored speed is the length of the velocity, and the
      velocity still points the way it did. */
  lemma UpdateKeepsHeading(e: Enemy, dt: real, h: real)
    requires IsHypot(h, e.body.velocity)
    ensures var r := UpdateEnemyState(e, dt, h);
            IsHypot(r.speed, r.body.velocity) && Aligned(r.body.velocity, e.body.velocity)
  {
    var s := Decelerate(h);
    var r := UpdateEnemyState(e, dt, h);
    assert r.body.velocity == Heading(e.body.velocity, h, s) && r.speed == s && s >= 0.0;
    HeadingFacts(e.body.velocity, h, s);
  }

  /** A tick never speeds an enemy up: above cruise speed it strictly slows it
      down without taking it below cruise speed, and at or below cruise speed
      it keeps the speed it has. */
  lemma UpdateNeverSpeedsUp(e: Enemy, dt: real, h: real)
    requires IsHypot(h, e.body.velocity)
    ensures var r := UpdateEnemyState(e, dt, h);
            r.speed <= h && (h > CruiseSpeed ==> CruiseSpeed < r.speed < h) &&
            (h > CruiseSpeed ==> r.speed - CruiseSpeed == 0.95 * (h - CruiseSpeed)) &&
            (h <= CruiseSpeed ==> r.speed == h)
  {}

  /** The enemy moves by its new velocity over at most a tenth of a second:
      exactly `dt` of it for a short frame, exactly a tenth for a long one. */
  lemma UpdateMovesBoundedly(e: Enemy, dt: real, h: real)
    requires IsHypot(h, e.body.velocity) && dt >= 0.0
    ensures var r := UpdateEnemyState(e, dt, h);
            Abs(r.body.position.x - e.body.position.x) <= MaxStep * Abs(r.body.velocity.x) &&
            Abs(r.body.position.y - e.body.position.y) <= MaxStep * Abs(r.body.velocity.y)
    ensures var r := UpdateEnemyState(e, dt, h);
            dt <= MaxStep ==> r.body.position == Add(e.body.position, Scale(r.body.velocity, dt))
    ensures var r := UpdateEnemyState(e, dt, h);
            dt >= MaxStep ==> r.body.position == Add(e.body.position, Scale(r.body.velocity, MaxStep))
  {
    IntegrateBounds(e.body.position, UpdateEnemyState(e, dt, h).body.velocity, dt);
  }

  /** `wallsCollisionHandler`: the circle handler applied to the enemy's body;
      the stored speed and the mass are untouched. */
  function EnemyWalls(e: Enemy, width: real, height: real): (r: Enemy)
    ensures r.speed == e.speed && r.mass == e.mass && r.body.radius == e.body.radius
    ensures r.body == WallsCollision(e.body, width, height)
    ensures width >= 2.0 * e.body.radius && height >= 2.0 * e.body.radius ==>
              Inside(r.body, width, height)
  {
    var r := e.(body := WallsCollision(e.body, width, height));
    if width >= 2.0 * e.body.radius && height >= 2.0 * e.body.radius then
      (WallsKeepInside(e.body, width, height); r)
    else r
  }

  // ---------------------------------------------------------------------------
  // Enemy against enemy

  /** The two enemies after a collision has been handled. */
  datatype Collided = Collided(first: Enemy, second: Enemy)

  /** Twice the kinetic energy of an enemy. */
  function Energy(e: Enemy): real {
    e.mass * Dot(e.body.velocity, e.body.velocity)
  }

  /** A pair of velocities. */
  datatype Velocities = Velocities(first: Point, second: Point)

  function WithVelocity(e: Enemy, v: Point): Enemy {
    e.(body := e.body.(velocity := v))
  }

  /** `vCollisionNorm`: the offset between the centres divided by its length. */
  function Normal(delta: Point, d: real): Point
    requires d != 0.0
  {
    Point(delta.x / d, delta.y / d)
  }

  /** The handler's `speed`: the relative velocity `v1 - v2` projected on the
      normal from the first centre to the second. */
  function NormalSpeed(v1: Point, v2: Point, delta: Point, d: real): real
    requires d != 0.0
  {
    Dot(Sub(v1, v2), Normal(delta, d))
  }

  /** The velocity update: the first body is pushed back along the normal `n`
      and the second forward, each by the impulse times the other's mass. */
  function Exchange(v1: Point, v2: Point, n: Point, impulse: real, m1: real, m2: real): Velocities {
    Velocities(Sub(v1, Scale(n, impulse * m2)), Add(v2, Scale(n, impulse * m1)))
  }

  /** The new velocities of an approaching pair: the impulse is
      `2 * speed / (m1 + m2)`. */
  function Resolve(v1: Point, v2: Point, delta: Point, d: real, m1: real, m2: real): Velocities
    requires d != 0.0 && m1 + m2 != 0.0
  {
    Exchange(v1, v2, Normal(delta, d), 2.0 * NormalSpeed(v1, v2, delta, d) / (m1 + m2), m1, m2)
  }

  /** `a.enemyCollisionHandler(b)` where `d` is the distance between the centres.
      The normal points from `a` to `b` and the relative velocity is `a`'s minus
      `b`'s, so a positive projection means the two approach each other; a
      separating pair is left alone, an approaching one gets new velocities.
      Coincident centres and a zero total mass make the source divide by zero:
      `None`. */
  function Collide(a: Enemy, b: Enemy, d: real): (r: Option<Collided>)
    requires IsHypot(d, Sub(b.body.position, a.body.position))
  {
    if d == 0.0 then None
    else
      var delta := Sub(b.body.position, a.body.position);
      if NormalSpeed(a.body.velocity, b.body.velocity, delta, d) < 0.0 then Some(Collided(a, b))
      else if a.mass + b.mass == 0.0 then None
      else
        var w := Resolve(a.body.velocity, b.body.velocity, delta, d, a.mass, b.mass);
        Some(Collided(WithVelocity(a, w.first), WithVelocity(b, w.second)))
  }

  /** The relative velocity of `a` with respect to `b`, projected on the
      unnormalised line from `a` to `b`: positive when they approach. */
  function Approach(a: Enemy, b: Enemy): real {
    Dot(Sub(a.body.velocity, b.body.velocity), Sub(b.body.position, a.body.position))
  }

  /** The normal has length 1 and, stretched by the distance, is the offset. */
  lemma NormalFacts(delta: Point, d: real)
    requires IsHypot(d, delta) && d != 0.0
    ensures Dot(Normal(delta, d), Normal(delta, d)) == 1.0
    ensures Scale(Normal(delta, d), d) == delta
  {
    var inv := 1.0 / d;
    InverseOf(d);
    DivIsMulInverse(delta.x, d);
    DivIsMulInverse(delta.y, d);
    UnitPoly(delta.x, delta.y, d, inv);
    DivMulCancel(delta.x, d);
    DivMulCancel(delta.y, d);
  }

  lemma UnitPoly(dx: real, dy: real, d: real, inv: real)
    requires d * d == dx * dx + dy * dy && inv * d == 1.0
    ensures (dx * inv) * (dx * inv) + (dy * inv) * (dy * inv) == 1.0
  {}

  lemma DotScale(u: Point, p: Point, k: real)
    ensures Dot(u, Scale(p, k)) == Dot(u, p) * k
  {}

  /** The normal speed times the distance is the unnormalised projection, so
      both have the same sign. */
  lemma NormalSpeedSign(v1: Point, v2: Point, delta: Point, d: real)
    requires IsHypot(d, delta) && d != 0.0
    ensures NormalSpeed(v1, v2, delta, d) * d == Dot(Sub(v1, v2), delta)
    ensures NormalSpeed(v1, v2, delta, d) < 0.0 <==> Dot(Sub(v1, v2), delta) < 0.0
  {
    NormalFacts(delta, d);
    DotScale(Sub(v1, v2), Normal(delta, d), d);
    SignOfScaled(NormalSpeed(v1, v2, delta, d), d);
  }

  lemma SignOfScaled(p: real, k: real)
    requires k > 0.0
    ensures p * k < 0.0 <==> p < 0.0
  {
    if p < 0.0 {
      MulPos(-p, k);
    } else {
      MulNonNeg(p, k);
    }
  }

  /** When the handler gives a result, and what it is: a result is missing
      exactly for coincident centres or for an approaching pair of zero total
      mass; a separating pair comes back unchanged; an approaching pair gets
      the `Resolve`d velocities and keeps everything else. */
  lemma CollideOutcome(a: Enemy, b: Enemy, d: real)
    requires IsHypot(d, Sub(b.body.position, a.body.position))
    ensures Collide(a, b, d).None? <==>
              d == 0.0 || (Approach(a, b) >= 0.0 && a.mass + b.mass == 0.0)
    ensures d != 0.0 && Approach(a, b) < 0.0 ==> Collide(a, b, d) == Some(Collided(a, b))
    ensures d != 0.0 && Approach(a, b) >= 0.0 && a.mass + b.mass != 0.0 ==>
              var w := Resolve(a.body.velocity, b.body.velocity, Sub(b.body.position, a.body.position), d,
                               a.mass, b.mass);
              Collide(a, b, d) == Some(Collided(WithVelocity(a, w.first), WithVelocity(b, w.second)))
  {
    if d != 0.0 {
      NormalSpeedSign(a.body.velocity, b.body.velocity, Sub(b.body.position, a.body.position), d);
    }
  }

  /** Momentum is conserved on each axis. */
  lemma CollideConservesMomentum(a: Enemy, b: Enemy, d: real)
    requires IsHypot(d, Sub(b.body.position, a.body.position))
    requires Collide(a, b, d).Some?
    ensures var r := Collide(a, b, d).value;
            a.mass * r.first.body.velocity.x + b.mass * r.second.body.velocity.x
              == a.mass * a.body.velocity.x + b.mass * b.body.velocity.x &&
            a.mass * r.first.body.velocity.y + b.mass * r.second.body.velocity.y
              == a.mass * a.body.velocity.y + b.mass * b.body.velocity.y
  {
    CollideOutcome(a, b, d);
    if Approach(a, b) >= 0.0 {
      ResolveMomentum(a.body.velocity, b.body.velocity, Sub(b.body.position, a.body.position), d, a.mass, b.mass);
    }
  }

  /** After the handler the pair never approaches: the approach of an
      approaching pair is exactly reversed, that of a separating pair kept. */
  lemma CollideReversesApproach(a: Enemy, b: Enemy, d: real)
    requires IsHypot(d, Sub(b.body.position, a.body.position))
    requires Collide(a, b, d).Some?
    ensures var r := Collide(a, b, d).value;
            Approach(r.first, r.second) == -Abs(Approach(a, b))
  {
    CollideOutcome(a, b, d);
    if Approach(a, b) >= 0.0 {
      ResolveReverses(a.body.velocity, b.body.velocity, Sub(b.body.position, a.body.position), d, a.mass, b.mass);
    }
  }

  /** The velocity components across the line of centres are kept. */
  lemma CollideKeepsTangential(a: Enemy, b: Enemy, d: real)
    requires IsHypot(d, Sub(b.body.position, a.body.position))
    requires Collide(a, b, d).Some?
    ensures var r := Collide(a, b, d).value;
            var t := Perp(Sub(b.body.position, a.body.position));
            Dot(r.first.body.velocity, t) == Dot(a.body.velocity, t) &&
            Dot(r.second.body.velocity, t) == Dot(b.body.velocity, t)
  {
    CollideOutcome(a, b, d);
    if Approach(a, b) >= 0.0 {
      ResolveTangent(a.body.velocity, b.body.velocity, Sub(b.body.position, a.body.position), d, a.mass, b.mass);
    }
  }

  /** Kinetic energy is conserved: the collision is perfectly elastic. */
  lemma CollideConservesEnergy(a: Enemy, b: Enemy, d: real)
    requires IsHypot(d, Sub(b.body.position, a.body.position))
    requires Collide(a, b, d).Some?
    ensures var r := Collide(a, b, d).value;
            Energy(r.first) + Energy(r.second) == Energy(a) + Energy(b)
  {
    CollideOutcome(a, b, d);
    if Approach(a, b) >= 0.0 {
      ResolveEnergy(a.body.velocity, b.body.velocity, Sub(b.body.position, a.body.position), d, a.mass, b.mass);
    }
  }

  // The new velocities in isolation, for any offset `delta` of length `d`.

  lemma ResolveMomentum(v1: Point, v2: Point, delta: Point, d: real, m1: real, m2: real)
    requires d != 0.0 && m1 + m2 != 0.0
    ensures var w := Resolve(v1, v2, delta, d, m1, m2);
            m1 * w.first.x + m2 * w.second.x == m1 * v1.x + m2 * v2.x &&
            m1 * w.first.y + m2 * w.second.y == m1 * v1.y + m2 * v2.y
  {
    ExchangeMomentum(v1, v2, Normal(delta, d), 2.0 * NormalSpeed(v1, v2, delta, d) / (m1 + m2), m1, m2);
  }

  lemma ResolveReverses(v1: Point, v2: Point, delta: Point, d: real, m1: real, m2: real)
    requires IsHypot(d, delta) && d != 0.0 && m1 + m2 != 0.0
    ensures var w := Resolve(v1, v2, delta, d, m1, m2);
            Dot(Sub(w.first, w.second), delta) == -Dot(Sub(v1, v2), delta)
  {
    var n := Normal(delta, d);
    var j := 2.0 * NormalSpeed(v1, v2, delta, d) / (m1 + m2);
    var w := Exchange(v1, v2, n, j, m1, m2);
    NormalFacts(delta, d);
    DivMulCancel(2.0 * NormalSpeed(v1, v2, delta, d), m1 + m2);
    ExchangeNormal(v1, v2, n, j, m1, m2);
    DotScale(Sub(w.first, w.second), n, d);
    DotScale(Sub(v1, v2), n, d);
  }

  lemma ResolveTangent(v1: Point, v2: Point, delta: Point, d: real, m1: real, m2: real)
    requires IsHypot(d, delta) && d != 0.0 && m1 + m2 != 0.0
    ensures var w := Resolve(v1, v2, delta, d, m1, m2);
            Dot(w.first, Perp(delta)) == Dot(v1, Perp(delta)) &&
            Dot(w.second, Perp(delta)) == Dot(v2, Perp(delta))
  {
    var n := Normal(delta, d);
    var j := 2.0 * NormalSpeed(v1, v2, delta, d) / (m1 + m2);
    var w := Exchange(v1, v2, n, j, m1, m2);
    NormalFacts(delta, d);
    PerpScale(n, d, delta);
    ExchangeTangent(v1, v2, n, j, m1, m2);
    KeepsScaledDot(v1, w.first, Perp(n), d);
    KeepsScaledDot(v2, w.second, Perp(n), d);
  }

  /** Turning a quarter turn commutes with scaling. */
  lemma PerpScale(n: Point, d: real, delta: Point)
    requires Scale(n, d) == delta
    ensures Perp(delta) == Scale(Perp(n), d)
  {}

  /** Two vectors with the same component along `p` also agree along any
      multiple of `p`. */
  lemma KeepsScaledDot(u: Point, u': Point, p: Point, k: real)
    requires Dot(u', p) == Dot(u, p)
    ensures Dot(u', Scale(p, k)) == Dot(u, Scale(p, k))
  {
    DotScale(u', p, k);
    DotScale(u, p, k);
  }

  lemma ResolveEnergy(v1: Point, v2: Point, delta: Point, d: real, m1: real, m2: real)
    requires IsHypot(d, delta) && d != 0.0 && m1 + m2 != 0.0
    ensures var w := Resolve(v1, v2, delta, d, m1, m2);
            m1 * Dot(w.first, w.first) + m2 * Dot(w.second, w.second)
              == m1 * Dot(v1, v1) + m2 * Dot(v2, v2)
  {
    var n := Normal(delta, d);
    var j := 2.0 * NormalSpeed(v1, v2, delta, d) / (m1 + m2);
    NormalFacts(delta, d);
    DivMulCancel(2.0 * NormalSpeed(v1, v2, delta, d), m1 + m2);
    ExchangeEnergy(v1, v2, n, j, m1, m2);
  }

  /** Scaling both masses by the same positive factor does not change the new
      velocities: only the ratio of the masses matters, so neither the value
      of pi nor the factor 4/3 in `Mass` affects any collision. */
  lemma ResolveScale(v1: Point, v2: Point, delta: Point, d: real, m1: real, m2: real, k: real)
    requires d != 0.0 && m1 + m2 != 0.0 && k > 0.0 && k * m1 + k * m2 != 0.0
    ensures Resolve(v1, v2, delta, d, k * m1, k * m2) == Resolve(v1, v2, delta, d, m1, m2)
  {
    var s := NormalSpeed(v1, v2, delta, d);
    var j := 2.0 * s / (m1 + m2);
    var jk := 2.0 * s / (k * m1 + k * m2);
    ImpulseScale(s, m1, m2, k, j, jk);
    ExchangeScale(v1, v2, Normal(delta, d), j, jk, m1, m2, k);
  }

  lemma ExchangeScale(v1: Point, v2: Point, n: Point, j: real, jk: real, m1: real, m2: real, k: real)
    requires jk * (k * m2) == j * m2 && jk * (k * m1) == j * m1
    ensures Exchange(v1, v2, n, jk, k * m1, k * m2) == Exchange(v1, v2, n, j, m1, m2)
  {}

  /** The impulse `jk` computed with both masses scaled by `k`, times a scaled
      mass, is the unscaled impulse `j` times the mass. */
  lemma ImpulseScale(s: real, m1: real, m2: real, k: real, j: real, jk: real)
    requires m1 + m2 != 0.0 && k > 0.0
    requires j == 2.0 * s / (m1 + m2) && k * m1 + k * m2 != 0.0 && jk == 2.0 * s / (k * m1 + k * m2)
    ensures jk * (k * m2) == j * m2 && jk * (k * m1) == j * m1
  {
    var m := m1 + m2;
    assert k * m1 + k * m2 == k * m;
    assert jk * (k * m) == 2.0 * s;
    assert j * m == 2.0 * s;
    assert (jk * k) * m == j * m;
    CancelRight(jk * k, j, m);
    assert jk * (k * m1) == (jk * k) * m1;
  }

  lemma CancelRight(x: real, y: real, c: real)
    requires c != 0.0 && x * c == y * c
    ensures x == y
  {
    assert (x - y) * c == 0.0;
  }

  // The exchange in isolation: polynomial identities over the normal `n` and
  // the impulse `j`.

  /** The exchange conserves momentum whatever the impulse. */
  lemma ExchangeMomentum(v1: Point, v2: Point, n: Point, j: real, m1: real, m2: real)
    ensures var w := Exchange(v1, v2, n, j, m1, m2);
            m1 * w.first.x + m2 * w.second.x == m1 * v1.x + m2 * v2.x &&
            m1 * w.first.y + m2 * w.second.y == m1 * v1.y + m2 * v2.y
  {}

  /** The exchange only acts along the normal. */
  lemma ExchangeTangent(v1: Point, v2: Point, n: Point, j: real, m1: real, m2: real)
    ensures var w := Exchange(v1, v2, n, j, m1, m2);
            Dot(w.first, Perp(n)) == Dot(v1, Perp(n)) && Dot(w.second, Perp(n)) == Dot(v2, Perp(n))
  {}

  /** With a unit normal and the elastic impulse, the relative normal velocity
      is reversed. */
  lemma ExchangeNormal(v1: Point, v2: Point, n: Point, j: real, m1: real, m2: real)
    requires Dot(n, n) == 1.0 && j * (m1 + m2) == 2.0 * Dot(Sub(v1, v2), n)
    ensures var w := Exchange(v1, v2, n, j, m1, m2);
            Dot(Sub(w.first, w.second), n) == -Dot(Sub(v1, v2), n)
  {}

  /** ... and the kinetic energy is kept. */
  lemma ExchangeEnergy(v1: Point, v2: Point, n: Point, j: real, m1: real, m2: real)
    requires Dot(n, n) == 1.0 && j * (m1 + m2) == 2.0 * Dot(Sub(v1, v2), n)
    ensures var w := Exchange(v1, v2, n, j, m1, m2);
            m1 * Dot(w.first, w.first) + m2 * Dot(w.second, w.second)
              == m1 * Dot(v1, v1) + m2 * Dot(v2, v2)
  {
    EnergyExpansion(v1, v2, n, j, m1, m2);
    EnergyCancel(v1, v2, n, j, m1, m2);
  }

  lemma EnergyExpansion(v1: Point, v2: Point, n: Point, j: real, m1: real, m2: real)
    ensures var w := Exchange(v1, v2, n, j, m1, m2);
            m1 * Dot(w.first, w.first) + m2 * Dot(w.second, w.second)
              == m1 * Dot(v1, v1) + m2 * Dot(v2, v2)
                 - 2.0 * j * m1 * m2 * Dot(Sub(v1, v2), n) + j * j * m1 * m2 * (m1 + m2) * Dot(n, n)
  {
    var w := Exchange(v1, v2, n, j, m1, m2);
    AxisEnergy(v1.x, v2.x, n.x, j, m1, m2);
    AxisEnergy(v1.y, v2.y, n.y, j, m1, m2);
    Distribute(m1, w.first.x * w.first.x, w.first.y * w.first.y);
    Distribute(m2, w.second.x * w.second.x, w.second.y * w.second.y);
    Distribute(m1, v1.x * v1.x, v1.y * v1.y);
    Distribute(m2, v2.x * v2.x, v2.y * v2.y);
    Distribute(2.0 * j * m1 * m2, (v1.x - v2.x) * n.x, (v1.y - v2.y) * n.y);
    Distribute(j * j * m1 * m2 * (m1 + m2), n.x * n.x, n.y * n.y);
  }

  lemma Distribute(k: real, a: real, b: real)
    ensures k * (a + b) == k * a + k * b
  {}

  /** `EnergyExpansion` on one axis. */
  lemma AxisEnergy(a: real, b: real, c: real, j: real, m1: real, m2: real)
    ensures m1 * ((a - c * (j * m2)) * (a - c * (j * m2))) + m2 * ((b + c * (j * m1)) * (b + c * (j * m1)))
            == m1 * (a * a) + m2 * (b * b) - 2.0 * j * m1 * m2 * ((a - b) * c) + j * j * m1 * m2 * (m1 + m2) * (c * c)
  {}

  lemma EnergyCancel(v1: Point, v2: Point, n: Point, j: real, m1: real, m2: real)
    requires Dot(n, n) == 1.0 && j * (m1 + m2) == 2.0 * Dot(Sub(v1, v2), n)
    ensures j * j * m1 * m2 * (m1 + m2) * Dot(n, n) == 2.0 * j * m1 * m2 * Dot(Sub(v1, v2), n)
  {}
}

=== FILE: geometry.dfy ===
/** Plain 2D values shared by every game object: points (also used as velocity
    vectors), axis-aligned rectangles, and the clamped time step used to integrate
    a position. The small lemmas at the end are the sign and division facts the
    other modules' proofs are built from. */
module Geometry {

  /** A coordinate or a velocity; the game uses the same `{x, y}` record for both. */
  datatype Point = Point(x: real, y: real)

  /** An axis-aligned rectangle with top-left corner (x, y), width w and height h. */
  datatype Rect = Rect(x: real, y: real, w: real, h: real)

  const Origin: Point := Point(0.0, 0.0)

  function Abs(a: real): (r: real)
    ensures r >= 0.0 && (r == a || r == -a)
  {
    if a < 0.0 then -a else a
  }

  function Min(a: real, b: real): (r: real)
    ensures r <= a && r <= b && (r == a || r == b)
  {
    if a <= b then a else b
  }

  function Add(p: Point, q: Point): Point {
    Point(p.x + q.x, p.y + q.y)
  }

  function Sub(p: Point, q: Point): Point {
    Point(p.x - q.x, p.y - q.y)
  }

  function Scale(p: Point, k: real): Point {
    Point(p.x * k, p.y * k)
  }

  function Dot(p: Point, q: Point): real {
    p.x * q.x + p.y * q.y
  }

  /** `p` turned a quarter turn counter-clockwise: perpendicular to `p`. */
  function Perp(p: Point): Point {
    Point(-p.y, p.x)
  }

  /** `d` is the Euclidean length of `v`, the value `Math.hypot(v.x, v.y)` returns.
      The square root itself is not computable over `real`, so the length is a
      parameter of every operation that needs one and this predicate ties it down. */
  predicate IsHypot(d: real, v: Point) {
    d >= 0.0 && d * d == v.x * v.x + v.y * v.y
  }

  /** The largest time step, in seconds, an object is ever moved by in one tick. */
  const MaxStep: real := 0.1

  /** `Math.min(deltaTime, 0.1)`: the effective time step of one tick. */
  function Step(dt: real): (t: real)
    ensures t <= MaxStep
    ensures dt <= MaxStep ==> t == dt
    ensures dt >= MaxStep ==> t == MaxStep
    ensures dt >= 0.0 ==> 0.0 <= t
  {
    Min(dt, MaxStep)
  }

  /** Moves `p` by velocity `v` over one clamped time step. */
  function Integrate(p: Point, v: Point, dt: real): Point {
    Add(p, Scale(v, Step(dt)))
  }

  /** A stalled frame cannot fling an object across the field: for any
      non-negative `dt` the displacement on each axis is at most a tenth of the
      velocity on that axis, and for a short frame it is exactly `v * dt`. */
  lemma IntegrateBounds(p: Point, v: Point, dt: real)
    requires dt >= 0.0
    ensures Abs(Integrate(p, v, dt).x - p.x) <= MaxStep * Abs(v.x)
    ensures Abs(Integrate(p, v, dt).y - p.y) <= MaxStep * Abs(v.y)
    ensures dt <= MaxStep ==> Integrate(p, v, dt) == Add(p, Scale(v, dt))
    ensures dt >= MaxStep ==> Integrate(p, v, dt) == Add(p, Scale(v, MaxStep))
  {
    var t := Step(dt);
    AxisBound(p.x, v.x, t);
    AxisBound(p.y, v.y, t);
    if dt <= MaxStep {
      ShortFrame(p, v, dt);
    }
    if dt >= MaxStep {
      LongFrame(p, v, dt);
    }
  }

  /** On one axis, moving from `a` at speed `v` for `t` in [0, 0.1] covers at
      most a tenth of `|v|`. */
  lemma AxisBound(a: real, v: real, t: real)
    requires 0.0 <= t <= MaxStep
    ensures Abs(a + v * t - a) <= MaxStep * Abs(v)
  {
    assert a + v * t - a == v * t;
    StepBound(v, t);
  }

  /** A frame of at most a tenth of a second moves by exactly `v * dt`. */
  lemma ShortFrame(p: Point, v: Point, dt: real)
    requires dt <= MaxStep
    ensures Integrate(p, v, dt) == Add(p, Scale(v, dt))
  {
    assert Step(dt) == dt;
  }

  /** A frame longer than a tenth of a second moves by exactly a tenth of a
      second's worth of velocity. */
  lemma LongFrame(p: Point, v: Point, dt: real)
    requires dt >= MaxStep
    ensures Integrate(p, v, dt) == Add(p, Scale(v, MaxStep))
  {
    assert Step(dt) == MaxStep;
  }

  /** |v·t| <= 0.1·|v| whenever 0 <= t <= 0.1. */
  lemma StepBound(v: real, t: real)
    requires 0.0 <= t <= MaxStep
    ensures Abs(v * t) <= MaxStep * Abs(v)
  {
    if v >= 0.0 {
      MulNonNeg(v, t);
      MulNonNeg(v, MaxStep - t);
    } else {
      MulNonNeg(-v, t);
      MulNonNeg(-v, MaxStep - t);
    }
  }

  /** `(Math.cos(a) * s, Math.sin(a) * s)` for `a = Math.atan2(v.y, v.x)`: a
      vector of length `s` pointing the way `v` points, where `h` is the length
      of `v`. Cosine and sine of that angle are `v.x / h` and `v.y / h`; for the
      zero vector `atan2` gives angle 0, so the result points along the x axis. */
  function Heading(v: Point, h: real, s: real): Point
    requires IsHypot(h, v)
  {
    if h == 0.0 then Point(s, 0.0) else Point(v.x / h * s, v.y / h * s)
  }

  /** `u` is parallel to `v` and does not point against it. */
  predicate Aligned(u: Point, v: Point) {
    u.x * v.y == u.y * v.x && Dot(u, v) >= 0.0
  }

  /** The heading has length `s` and is aligned with `v`; the zero vector,
      whose `atan2` is 0, heads along the positive x axis. */
  lemma HeadingFacts(v: Point, h: real, s: real)
    requires IsHypot(h, v) && s >= 0.0
    ensures IsHypot(s, Heading(v, h, s))
    ensures Aligned(Heading(v, h, s), v)
    ensures h == 0.0 ==> Heading(v, h, s) == Point(s, 0.0)
  {
    if h != 0.0 {
      var inv := 1.0 / h;
      var w := Heading(v, h, s);
      assert w == Point(v.x * inv * s, v.y * inv * s) by {
        DivIsMulInverse(v.x, h);
        DivIsMulInverse(v.y, h);
      }
      InverseOf(h);
      ScaledLength(v.x, v.y, h, inv, s);
      MulNonNeg(s, h);
    }
  }

  /** The polynomial core of `HeadingFacts`, with `inv` standing for 1/h. */
  lemma ScaledLength(x: real, y: real, h: real, inv: real, s: real)
    requires h * h == x * x + y * y && inv * h == 1.0
    ensures (x * inv * s) * (x * inv * s) + (y * inv * s) * (y * inv * s) == s * s
    ensures (x * inv * s) * y == (y * inv * s) * x
    ensures (x * inv * s) * x + (y * inv * s) * y == s * h
  {}

  // Sign and division facts. Each is stated over plain variables so that the
  // nonlinear step it needs is proved in isolation.

  lemma MulNonNeg(a: real, b: real)
    requires a >= 0.0 && b >= 0.0
    ensures a * b >= 0.0
  {}

  lemma MulPos(a: real, b: real)
    requires a > 0.0 && b > 0.0
    ensures a * b > 0.0
  {}

  lemma SquarePos(a: real)
    requires a != 0.0
    ensures a * a > 0.0
  {}

  lemma SquareNonNeg(a: real)
    ensures a * a >= 0.0
  {}

  /** `1/d` is the multiplicative inverse of a nonzero `d`. */
  lemma InverseOf(d: real)
    requires d != 0.0
    ensures (1.0 / d) * d == 1.0
  {}

  /** Dividing by a nonzero `d` and multiplying back gives the dividend. */
  lemma DivMulCancel(a: real, d: real)
    requires d != 0.0
    ensures (a / d) * d == a
  {}

  /** Division is multiplication by the inverse. */
  lemma DivIsMulInverse(a: real, d: real)
    requires d != 0.0
    ensures a / d == a * (1.0 / d)
  {}
}

=== FILE: grid.dfy ===
/** Grid layout: how many rows and columns a set of n items is laid out in
    (`getRowsCols`), and which 1-based cell a 1-based place number falls in
    (`getCellByNumber`), in row-major ("horizontal") or column-major ("vertical")
    order. Counts are integers; JavaScript's truncating `%`, `Math.ceil` of a
    quotient and the `x || y` fallback are written out explicitly. */
module Grid {
  import opened Options

  // ---------------------------------------------------------------------------
  // Integer square root

  /** `Math.floor(Math.sqrt(n))` for a count `n`: the largest r with r*r <= n. */
  function FloorSqrt(n: nat): (r: nat)
    ensures r * r <= n < (r + 1) * (r + 1)
  {
    if n == 0 then 0
    else
      var s := FloorSqrt(n - 1);
      SquareSucc(s);
      if (s + 1) * (s + 1) <= n then
        SquareSucc(s + 1);
        s + 1
      else s
  }

  lemma SquareSucc(s: int)
    ensures (s + 1) * (s + 1) == s * s + 2 * s + 1
  {}

  /** The floor square root is determined by its defining inequalities, so it is
      the same whatever way it is computed. */
  lemma {:induction false} FloorSqrtUnique(n: nat, r: nat)
    requires r * r <= n < (r + 1) * (r + 1)
    ensures FloorSqrt(n) == r
  {
    var s := FloorSqrt(n);
    if s < r {
      MulMono(s + 1, r);
      assert false;
    } else if r < s {
      MulMono(r + 1, s);
      assert false;
    }
  }

  /** Squaring is monotone on naturals. */
  lemma MulMono(a: nat, b: nat)
    requires a <= b
    ensures a * a <= b * b
  {
    MulLe(a, a, b);
    MulLe(b, a, b);
  }

  lemma MulLe(k: nat, a: nat, b: nat)
    requires a <= b
    ensures k * a <= k * b
  {
    assert k * b - k * a == k * (b - a);
  }

  // ---------------------------------------------------------------------------
  // getRowsCols

  datatype Dims = Dims(rows: nat, cols: nat)

  /** `getRowsCols(n)`: start from a square of side floor(sqrt(n)), add a column
      when anything is left over, and also a row when more than one column's
      worth is left over. */
  function RowsCols(n: nat): (d: Dims)
    ensures d.rows * d.cols >= n
    ensures d.cols == d.rows || d.cols == d.rows + 1
    ensures n >= 1 ==> (d.rows - 1) * d.cols < n && d.rows * (d.cols - 1) < n
    ensures n == 0 ==> d == Dims(0, 0)
  {
    var r := FloorSqrt(n);
    var rest := n - r * r;
    var cols := if rest > 0 then r + 1 else r;
    var rows := if rest > r then r + 1 else r;
    RowsColsFacts(n, r, rest);
    Dims(rows, cols)
  }

  /** The products the bounds of `RowsCols` are about, expanded around r. */
  lemma RowsColsFacts(n: nat, r: nat, rest: int)
    requires r * r <= n < (r + 1) * (r + 1) && rest == n - r * r
    ensures r * (r + 1) == r * r + r
    ensures (r + 1) * (r + 1) == r * r + 2 * r + 1
    ensures (r - 1) * (r + 1) == r * r - 1
    ensures (r - 1) * r == r * r - r
    ensures 0 <= rest <= 2 * r
    ensures n == 0 ==> r == 0
  {
    SquareSucc(r);
    if n == 0 && r != 0 {
      MulMono(1, r);
    }
  }

  /** A perfect square k*k is laid out as a k-by-k square. */
  lemma PerfectSquare(k: nat)
    ensures RowsCols(k * k) == Dims(k, k)
  {
    SquareSucc(k);
    FloorSqrtUnique(k * k, k);
  }

  // ---------------------------------------------------------------------------
  // JavaScript integer operators

  /** JavaScript's `a % b`: the remainder takes the sign of the dividend. */
  function JsRem(a: int, b: int): (r: int)
    requires b != 0
    ensures a >= 0 ==> 0 <= r < Abs(b)
    ensures a <= 0 ==> -Abs(b) < r <= 0
    ensures (a - r) % Abs(b) == 0
  {
    var k := Abs(b);
    if a >= 0 then
      DivMod(a, k);
      DivModUnique(a - a % k, k, a / k, 0);
      a % k
    else
      DivMod(-a, k);
      DivModUnique(a + (-a) % k, k, -((-a) / k), 0);
      -((-a) % k)
  }

  function Abs(a: int): (r: int)
    ensures r >= 0 && (r == a || r == -a)
  {
    if a < 0 then -a else a
  }

  /** `Math.ceil(a / b)` for integers: the least integer not below the quotient. */
  function CeilDiv(a: int, b: int): (q: int)
    requires b != 0
    ensures b > 0 ==> (q - 1) * b < a <= q * b
  {
    if b > 0 then -((-a) / b) else -(a / (-b))
  }

  /** `x || y` on a finite number: `y` exactly when `x` is zero. */
  function OrElse(x: int, y: int): (r: int)
    ensures x != 0 ==> r == x
    ensures x == 0 ==> r == y
    ensures r != 0 || y == 0
  {
    if x != 0 then x else y
  }

  // ---------------------------------------------------------------------------
  // getCellByNumber

  /** A 1-based (row, col) cell. */
  datatype Cell = Cell(row: int, col: int)

  predicate InGrid(c: Cell, rows: int, cols: int) {
    1 <= c.row <= rows && 1 <= c.col <= cols
  }

  /** The place a cell has in the numbering: the inverse of `CellByNumber`. */
  function PlaceOf(c: Cell, rows: int, cols: int, isVertical: bool): int {
    if isVertical then (c.col - 1) * rows + c.row else (c.row - 1) * cols + c.col
  }

  /** `getCellByNumber(place, rows, cols, isVertical)`. In vertical order the
      place is split by `rows`, otherwise by `cols`; a zero divisor makes the
      quotient non-finite, which is `None` here. */
  function CellByNumber(place: int, rows: int, cols: int, isVertical: bool): (r: Option<Cell>)
    ensures r.None? <==> (if isVertical then rows == 0 else cols == 0)
    ensures 1 <= rows && 1 <= cols && 1 <= place <= rows * cols ==>
              r.Some? && InGrid(r.value, rows, cols) &&
              PlaceOf(r.value, rows, cols, isVertical) == place
  {
    if isVertical then
      if rows == 0 then None
      else
        var row := OrElse(JsRem(place, rows), rows);
        var col := CeilDiv(place, rows);
        if 1 <= rows && 1 <= cols && 1 <= place <= rows * cols then
          SplitPlace(place, rows, cols);
          Some(Cell(row, col))
        else Some(Cell(row, col))
    else
      if cols == 0 then None
      else
        var col := OrElse(JsRem(place, cols), cols);
        var row := CeilDiv(place, cols);
        if 1 <= rows && 1 <= cols && 1 <= place <= rows * cols then
          MulComm(rows, cols);
          SplitPlace(place, cols, rows);
          Some(Cell(row, col))
        else Some(Cell(row, col))
  }

  /** Numbering a cell of the grid and looking the number up again gives the
      cell back: together with the ensures of `CellByNumber`, the numbering is a
      bijection between 1..rows*cols and the cells of the grid. */
  lemma CellRoundTrip(c: Cell, rows: int, cols: int, isVertical: bool)
    requires InGrid(c, rows, cols)
    ensures CellByNumber(PlaceOf(c, rows, cols, isVertical), rows, cols, isVertical) == Some(c)
  {
    var place := PlaceOf(c, rows, cols, isVertical);
    if isVertical {
      JoinPlace(place, rows, c.col - 1, c.row - 1);
    } else {
      JoinPlace(place, cols, c.row - 1, c.col - 1);
    }
  }

  /** The place q*k + s + 1 splits back into quotient q and remainder s. */
  lemma JoinPlace(place: int, k: int, q: int, s: int)
    requires k >= 1 && q >= 0 && 0 <= s < k && place == q * k + s + 1
    ensures OrElse(JsRem(place, k), k) == s + 1 && CeilDiv(place, k) == q + 1
  {
    if s + 1 == k {
      SplitLastColumn(place, k, q);
    } else {
      SplitInnerColumn(place, k, q, s);
    }
  }

  /** In row-major order place k + 1 is the cell after k / cols full rows and
      k % cols cells of the next one. */
  lemma RowMajorCell(k: int, rows: int, cols: int)
    requires 1 <= cols && 0 <= k
    ensures CellByNumber(k + 1, rows, cols, false) == Some(Cell(k / cols + 1, k % cols + 1))
  {
    DivMod(k, cols);
    JoinPlace(k + 1, cols, k / cols, k % cols);
  }

  /** Distinct places of the grid are given distinct cells, in either order. */
  lemma CellInjective(p1: int, p2: int, rows: int, cols: int, isVertical: bool)
    requires 1 <= rows && 1 <= cols
    requires 1 <= p1 <= rows * cols && 1 <= p2 <= rows * cols && p1 != p2
    ensures CellByNumber(p1, rows, cols, isVertical) != CellByNumber(p2, rows, cols, isVertical)
  {}

  /** In row-major order a multiple of `cols` lands in the last column (the
      remainder 0 is replaced by `cols`), never in a column 0. */
  lemma MultipleInLastColumn(k: int, rows: int, cols: int)
    requires 1 <= k && 1 <= cols
    ensures CellByNumber(k * cols, rows, cols, false) == Some(Cell(k, cols))
  {
    SplitLastColumn(k * cols, cols, k - 1);
  }

  /** Every place 1..n of a layout made by `RowsCols(n)` gets a cell of that
      grid, in either order. */
  lemma LayoutHoldsEveryPlace(n: nat, place: int, isVertical: bool)
    requires 1 <= place <= n
    ensures var d := RowsCols(n);
            var c := CellByNumber(place, d.rows, d.cols, isVertical);
            c.Some? && InGrid(c.value, d.rows, d.cols)
  {
  }

  lemma MulComm(a: int, b: int)
    ensures a * b == b * a
  {}

  /** Splitting a place 1..k*m by k: the quotient rounded up is in 1..m, the
      remainder (with 0 read as k) is in 1..k, and they recompose the place. */
  lemma SplitPlace(place: int, k: int, m: int)
    requires 1 <= k && 1 <= m && 1 <= place <= k * m
    ensures var minor := OrElse(JsRem(place, k), k);
            var major := CeilDiv(place, k);
            1 <= minor <= k && 1 <= major <= m && (major - 1) * k + minor == place
  {
    var q := (place - 1) / k;
    var s := (place - 1) % k;
    DivMod(place - 1, k);
    QuotientBound(place - 1, k, m);
    if s + 1 == k {
      SplitLastColumn(place, k, q);
    } else {
      SplitInnerColumn(place, k, q, s);
    }
  }

  /** A place that is a multiple of k lands in the last position, k. */
  lemma SplitLastColumn(place: int, k: int, q: int)
    requires k >= 1 && q >= 0 && place == (q + 1) * k
    ensures OrElse(JsRem(place, k), k) == k && CeilDiv(place, k) == q + 1
  {
    DivModUnique(place, k, q + 1, 0);
    DivModUnique(-place, k, -(q + 1), 0);
  }

  /** Any other place lands at its remainder. */
  lemma SplitInnerColumn(place: int, k: int, q: int, s: int)
    requires k >= 1 && q >= 0 && 0 <= s && s + 1 < k && place == q * k + s + 1
    ensures OrElse(JsRem(place, k), k) == s + 1 && CeilDiv(place, k) == q + 1
  {
    DivModUnique(place, k, q, s + 1);
    DivModUnique(-place, k, -(q + 1), k - (s + 1));
  }

  lemma DivMod(a: int, k: int)
    requires k >= 1
    ensures a == (a / k) * k + a % k && 0 <= a % k < k
  {}

  /** Euclidean division is determined by its defining equation. */
  lemma DivModUnique(a: int, k: int, q: int, s: int)
    requires k >= 1 && 0 <= s < k && a == q * k + s
    ensures a / k == q && a % k == s
  {
    var q' := a / k;
    DivMod(a, k);
    if q' < q {
      MulLeInt(q' + 1, q, k);
      assert false;
    } else if q < q' {
      MulLeInt(q + 1, q', k);
      assert false;
    }
  }

  lemma MulLeInt(a: int, b: int, k: int)
    requires a <= b && k >= 0
    ensures a * k <= b * k
  {
    assert b * k - a * k == (b - a) * k;
  }

  /** A place below k*m has quotient below m. */
  lemma QuotientBound(a: int, k: int, m: int)
    requires 0 <= a < k * m && k >= 1
    ensures 0 <= a / k < m
  {
    DivMod(a, k);
    if a / k < 0 {
      MulLeInt(a / k, -1, k);
      assert false;
    }
    if a / k >= m {
      MulLeInt(m, a / k, k);
      assert false;
    }
  }
}

=== FILE: options.dfy ===
/** An optional value. `None` stands for a result the game code would produce as a
    non-finite number (NaN or Infinity) because of a division by zero. */
module Options {

  datatype Option<+T> = None | Some(value: T)
}

=== FILE: players.dfy ===
/** The player (`Player` in the game): a circle that walks at a fixed speed
    towards the destination the mouse last set, and stops once it is within two
    units of it. The heading is the direction of the offset to the destination;
    its length, `Math.hypot` of that offset, is a parameter tied down by
    `IsHypot`, exactly as for the enemies. */
module Players {
  import opened Geometry

  /** The mutable state of a player. The angle the class keeps is only the
      direction of `destination - position`; it is folded into `Heading`. */
  datatype Player = Player(position: Point, destination: Point, velocity: Point, distance: real)

  /** `readonly radius = 25` and the walking speed, 70 units per second; neither
      is ever assigned after construction. */
  const Radius: real := 25.0
  const Speed: real := 70.0

  /** The player only moves while it is farther than this from its destination. */
  const ArrivalRadius: real := 2.0

  /** The vector from the player to its destination. */
  function Offset(p: Player): Point {
    Sub(p.destination, p.position)
  }

  /** The constructor: the player stands still at the centre of a
      `width` by `height` field, with its destination on the spot. */
  function NewPlayer(width: real, height: real): (p: Player)
    ensures p.position == p.destination
    ensures p.position.x + p.position.x == width && p.position.y + p.position.y == height
    ensures p.velocity == Origin && p.distance == 0.0
  {
    var centre := Point(width / 2.0, height / 2.0);
    Player(centre, centre, Origin, 0.0)
  }

  /** `updatePosition(deltaTime)`: one clamped step along the current velocity,
      skipped entirely inside the arrival radius. Only the position changes. */
  function UpdatePosition(p: Player, dt: real): (r: Player)
    ensures r.destination == p.destination && r.velocity == p.velocity && r.distance == p.distance
    ensures p.distance <= ArrivalRadius ==> r == p
    ensures p.distance > ArrivalRadius && 0.0 <= dt <= MaxStep ==>
              r.position == Add(p.position, Scale(p.velocity, dt))
    ensures p.distance > ArrivalRadius && dt >= MaxStep ==>
              r.position == Add(p.position, Scale(p.velocity, MaxStep))
  {
    if p.distance > ArrivalRadius then
      if 0.0 <= dt then
        IntegrateBounds(p.position, p.velocity, dt);
        p.(position := Integrate(p.position, p.velocity, dt))
      else
        p.(position := Integrate(p.position, p.velocity, dt))
    else p
  }

  /** However long the frame, one update moves the player at most a tenth of
      its velocity on each axis. */
  lemma UpdatePositionBounded(p: Player, dt: real)
    requires dt >= 0.0
    ensures Abs(UpdatePosition(p, dt).position.x - p.position.x) <= MaxStep * Abs(p.velocity.x)
    ensures Abs(UpdatePosition(p, dt).position.y - p.position.y) <= MaxStep * Abs(p.velocity.y)
  {
    IntegrateBounds(p.position, p.velocity, dt);
    MulNonNeg(MaxStep, Abs(p.velocity.x));
    MulNonNeg(MaxStep, Abs(p.velocity.y));
  }

  /** `updateDistanceToDestination()`: records the length `d` of the offset. */
  function UpdateDistanceToDestination(p: Player, d: real): (r: Player)
    requires IsHypot(d, Offset(p))
    ensures r.position == p.position && r.destination == p.destination && r.velocity == p.velocity
    ensures r.distance >= 0.0 && IsHypot(r.distance, Offset(r))
  {
    p.(distance := d)
  }

  /** `updateAngle()` then `updateVelocity()`: full speed along the offset, whose
      length is `d`. */
  function UpdateVelocity(p: Player, d: real): (r: Player)
    requires IsHypot(d, Offset(p))
    ensures r.position == p.position && r.destination == p.destination && r.distance == p.distance
  {
    p.(velocity := Heading(Offset(p), d, Speed))
  }

  /** The new velocity has the walking speed as its length and points at the
      destination. */
  lemma VelocityTowardsDestination(p: Player, d: real)
    requires IsHypot(d, Offset(p))
    ensures IsHypot(Speed, UpdateVelocity(p, d).velocity)
    ensures Aligned(UpdateVelocity(p, d).velocity, Offset(p))
  {
    HeadingFacts(Offset(p), d, Speed);
  }

  /** `updatePlayerState(deltaTime)`: angle, distance, velocity, then position,
      in that order, so the step uses the velocity just computed and the dead
      zone tests the distance just measured. */
  function UpdatePlayerState(p: Player, dt: real, d: real): (r: Player)
    requires IsHypot(d, Offset(p))
    ensures r.destination == p.destination
    ensures r.distance == d
    ensures d <= ArrivalRadius ==> r.position == p.position
  {
    var measured := UpdateDistanceToDestination(p, d);
    UpdatePosition(UpdateVelocity(measured, d), dt)
  }

  /** Outside the arrival radius one tick moves the player straight towards its
      destination, by exactly the walking speed times the clamped time step. */
  lemma UpdatePlayerStateHeadsForDestination(p: Player, dt: real, d: real)
    requires IsHypot(d, Offset(p)) && d > ArrivalRadius && dt >= 0.0
    ensures var step := Sub(UpdatePlayerState(p, dt, d).position, p.position);
            Aligned(step, Offset(p)) && IsHypot(Speed * Step(dt), step)
  {
    var w := UpdateVelocity(UpdateDistanceToDestination(p, d), d).velocity;
    VelocityTowardsDestination(p, d);
    var t := Step(dt);
    assert Sub(UpdatePlayerState(p, dt, d).position, p.position) == Scale(w, t);
    ScaledStep(w, Offset(p), t);
  }

  /** Scaling a vector of walking-speed length that is aligned with `o` by a
      non-negative `t` keeps it aligned and scales its length by `t`. */
  lemma ScaledStep(w: Point, o: Point, t: real)
    requires IsHypot(Speed, w) && Aligned(w, o) && t >= 0.0
    ensures Aligned(Scale(w, t), o) && IsHypot(Speed * t, Scale(w, t))
  {
    assert Dot(Scale(w, t), o) == t * Dot(w, o);
    MulNonNeg(t, Dot(w, o));
    MulNonNeg(Speed, t);
  }

  /** A player standing on its destination does not move, whatever the frame. */
  lemma AtDestinationStaysPut(p: Player, dt: real)
    requires p.position == p.destination
    ensures UpdatePlayerState(p, dt, 0.0).position == p.position
  {}

  /** A freshly constructed player stays at the centre on its first tick. */
  lemma NewPlayerStaysAtCentre(width: real, height: real, dt: real)
    ensures UpdatePlayerState(NewPlayer(width, height), dt, 0.0).position == NewPlayer(width, height).position
  {
    AtDestinationStaysPut(NewPlayer(width, height), dt);
  }

  /** The `Destination` setter: only the destination changes. */
  function SetDestination(p: Player, q: Point): (r: Player)
    ensures r.destination == q
    ensures r.position == p.position && r.velocity == p.velocity && r.distance == p.distance
  {
    p.(destination := q)
  }

  /** The `Position` setter: only the position changes. */
  function SetPosition(p: Player, q: Point): (r: Player)
    ensures r.position == q
    ensures r.destination == p.destination && r.velocity == p.velocity && r.distance == p.distance
  {
    p.(position := q)
  }

  /** A destination set by the mouse survives any number of ticks: the update
      never writes it, so the next tick walks towards the new destination. */
  lemma DestinationSurvivesTicks(p: Player, q: Point, dt: real, d: real)
    requires IsHypot(d, Sub(q, p.position))
    ensures UpdatePlayerState(SetDestination(p, q), dt, d).destination == q
    ensures d > ArrivalRadius && dt >= 0.0 ==>
              Aligned(Sub(UpdatePlayerState(SetDestination(p, q), dt, d).position, p.position),
                      Sub(q, p.position))
  {
    if d > ArrivalRadius && dt >= 0.0 {
      UpdatePlayerStateHeadsForDestination(SetDestination(p, q), dt, d);
    }
  }
}

=== FILE: sprites.dfy ===
/** The sprite sheet animation (`Sprite`): a frame counter that advances at most
    once per `updateTime` milliseconds and wraps at the number of columns, and
    the source rectangle of the current frame, found by numbering the sheet's
    cells row by row with `getCellByNumber`. */
module Sprites {
  import opened Options
  import opened Geometry
  import Grid

  /** The part of a sprite the counter and the drawing arithmetic use. Frame
      sizes are set once the image has loaded; timestamps are those
      `requestAnimationFrame` passes in. */
  datatype Sprite = Sprite(
    rows: int, cols: int,
    frameWidth: real, frameHeight: real,
    frame: int, lastUpdate: real)

  /** The constructor's defaults: one row, one column, zero-sized frames, frame
      0 and no update yet. */
  function NewSprite(): (s: Sprite)
    ensures ValidFrame(s) && s.frame == 0
    ensures s.rows == 1 && s.cols == 1
  {
    Sprite(1, 1, 0.0, 0.0, 0, 0.0)
  }

  /** The frame counter is within the first row of the sheet. */
  predicate ValidFrame(s: Sprite) {
    1 <= s.cols && 0 <= s.frame < s.cols
  }

  /** `nextFrame(timeStamp, updateTime)`: once more than `updateTime` has
      passed since the last change, step to the next frame, going back to 0
      at the end of the row, and remember the time. */
  function NextFrame(s: Sprite, timeStamp: real, updateTime: real): (r: Sprite)
    ensures timeStamp - s.lastUpdate <= updateTime ==> r == s
    ensures r.rows == s.rows && r.cols == s.cols
    ensures r.frameWidth == s.frameWidth && r.frameHeight == s.frameHeight
    ensures timeStamp - s.lastUpdate > updateTime ==> r.lastUpdate == timeStamp
    ensures timeStamp - s.lastUpdate > updateTime && ValidFrame(s) ==>
              r.frame == (s.frame + 1) % s.cols
    ensures timeStamp - s.lastUpdate > updateTime && s.cols >= 1 && s.frame >= -1 ==>
              ValidFrame(r)
  {
    if timeStamp - s.lastUpdate > updateTime then
      var next := s.frame + 1;
      var frame := if next >= s.cols then 0 else next;
      if ValidFrame(s) then
        WrapStep(s.frame, s.cols);
        s.(frame := frame, lastUpdate := timeStamp)
      else
        s.(frame := frame, lastUpdate := timeStamp)
    else s
  }

  /** One step of the counter, compared with counting modulo `cols`. */
  lemma WrapStep(f: int, cols: int)
    requires 0 <= f < cols
    ensures (f + 1) % cols == (if f + 1 >= cols then 0 else f + 1)
  {
    if f + 1 == cols {
      Grid.DivModUnique(f + 1, cols, 1, 0);
    } else {
      Grid.DivModUnique(f + 1, cols, 0, f + 1);
    }
  }

  /** `setFrame(frame)`: any value is accepted, so the counter is left valid
      exactly when the value is a frame of the first row. */
  function SetFrame(s: Sprite, frame: int): (r: Sprite)
    ensures r.frame == frame
    ensures r.rows == s.rows && r.cols == s.cols && r.lastUpdate == s.lastUpdate
    ensures r.frameWidth == s.frameWidth && r.frameHeight == s.frameHeight
    ensures ValidFrame(r) <==> 1 <= s.cols && 0 <= frame < s.cols
  {
    s.(frame := frame)
  }

  /** A counter set out of range by `setFrame` (but not below -1) is back in
      range after its next change. */
  lemma SetFrameRecovers(s: Sprite, frame: int, timeStamp: real, updateTime: real)
    requires s.cols >= 1 && frame >= -1
    requires timeStamp - s.lastUpdate > updateTime
    ensures ValidFrame(NextFrame(SetFrame(s, frame), timeStamp, updateTime))
  {}

  // ---------------------------------------------------------------------------
  // A run of animation frames

  /** Calls `nextFrame(t, updateTime)` once for each timestamp `t`, in order. */
  function Animate(s: Sprite, stamps: seq<real>, updateTime: real): Sprite
    decreases |stamps|
  {
    if |stamps| == 0 then s
    else Animate(NextFrame(s, stamps[0], updateTime), stamps[1..], updateTime)
  }

  /** Each timestamp comes more than `updateTime` after the one before it, the
      first more than `updateTime` after `last`. */
  predicate Spaced(last: real, stamps: seq<real>, updateTime: real)
    decreases |stamps|
  {
    |stamps| == 0 ||
    (stamps[0] - last > updateTime && Spaced(stamps[0], stamps[1..], updateTime))
  }

  /** However the timestamps fall, a valid counter stays valid and the sheet
      is left alone. */
  lemma {:induction false} AnimateKeepsValid(s: Sprite, stamps: seq<real>, updateTime: real)
    requires ValidFrame(s)
    ensures ValidFrame(Animate(s, stamps, updateTime))
    ensures Animate(s, stamps, updateTime).cols == s.cols
    ensures Animate(s, stamps, updateTime).rows == s.rows
    decreases |stamps|
  {
    if |stamps| > 0 {
      AnimateKeepsValid(NextFrame(s, stamps[0], updateTime), stamps[1..], updateTime);
    }
  }

  /** With every timestamp late enough to count, the counter steps once per
      call: after n calls it shows frame `(frame + n) % cols` and remembers the
      last timestamp. */
  lemma {:induction false} AnimateCounts(s: Sprite, stamps: seq<real>, updateTime: real)
    requires ValidFrame(s) && Spaced(s.lastUpdate, stamps, updateTime)
    ensures Animate(s, stamps, updateTime).frame == (s.frame + |stamps|) % s.cols
    ensures |stamps| > 0 ==> Animate(s, stamps, updateTime).lastUpdate == stamps[|stamps| - 1]
    decreases |stamps|
  {
    if |stamps| == 0 {
      Grid.DivModUnique(s.frame, s.cols, 0, s.frame);
    } else {
      var next := NextFrame(s, stamps[0], updateTime);
      AnimateCounts(next, stamps[1..], updateTime);
      ModShift(s.frame + 1, |stamps| - 1, s.cols);
      if |stamps| > 1 {
        assert stamps[1..][|stamps[1..]| - 1] == stamps[|stamps| - 1];
      }
    }
  }

  /** Reducing the first summand modulo `c` does not change the sum modulo `c`. */
  lemma ModShift(a: int, b: int, c: int)
    requires a >= 0 && b >= 0 && c >= 1
    ensures (a % c + b) % c == (a + b) % c
  {
    var q1 := a / c;
    var r1 := a % c;
    Grid.DivMod(a, c);
    var q2 := (r1 + b) / c;
    var r2 := (r1 + b) % c;
    Grid.DivMod(r1 + b, c);
    assert a + b == (q1 + q2) * c + r2;
    Grid.DivModUnique(a + b, c, q1 + q2, r2);
  }

  /** A full row's worth of counted calls brings the counter back to where it
      started. */
  lemma AnimateFullCycle(s: Sprite, stamps: seq<real>, updateTime: real)
    requires ValidFrame(s) && Spaced(s.lastUpdate, stamps, updateTime)
    requires |stamps| == s.cols
    ensures Animate(s, stamps, updateTime).frame == s.frame
  {
    AnimateCounts(s, stamps, updateTime);
    Grid.DivModUnique(s.frame + s.cols, s.cols, 1, s.frame);
  }

  // ---------------------------------------------------------------------------
  // getSpriteArgsToDraw

  /** `getSpriteArgsToDraw()`: the source rectangle of the current frame, from
      the cell that place `frame + 1` gets in row-major order. A sheet with no
      columns makes that cell non-finite, which is `None` here. */
  function SpriteArgsToDraw(s: Sprite): (r: Option<Rect>)
    ensures r.None? <==> s.cols == 0
    ensures r.Some? ==> r.value.w == s.frameWidth && r.value.h == s.frameHeight
  {
    var cell := Grid.CellByNumber(s.frame + 1, s.rows, s.cols, false);
    if cell.None? then None
    else Some(SourceRect(cell.value.row - 1, cell.value.col - 1, s.frameWidth, s.frameHeight))
  }

  /** The rectangle of a `w` by `h` frame after `above` full rows and `before`
      frames of its own row. */
  function SourceRect(above: int, before: int, w: real, h: real): Rect
  {
    Rect(before as real * w, above as real * h, w, h)
  }

  /** Frame k of a sheet with `cols` columns is cut from column `k % cols` of
      row `k / cols`: the frames are numbered row by row across the sheet. */
  lemma SpriteArgsTileTheSheet(s: Sprite)
    requires 1 <= s.cols && 0 <= s.frame
    ensures SpriteArgsToDraw(s) ==
              Some(SourceRect(s.frame / s.cols, s.frame % s.cols, s.frameWidth, s.frameHeight))
  {
    Grid.DivMod(s.frame, s.cols);
    SheetCell(s, s.frame / s.cols, s.frame % s.cols);
  }

  /** Frame `q * cols + m` is cut after `q` full rows and `m` frames. */
  lemma SheetCell(s: Sprite, q: int, m: int)
    requires 1 <= s.cols && 0 <= q && 0 <= m < s.cols && s.frame == q * s.cols + m
    ensures SpriteArgsToDraw(s) == Some(SourceRect(q, m, s.frameWidth, s.frameHeight))
  {
    Grid.JoinPlace(s.frame + 1, s.cols, q, m);
    assert Grid.CellByNumber(s.frame + 1, s.rows, s.cols, false) == Some(Grid.Cell(q + 1, m + 1));
  }

  /** For a counter in the first row, as `nextFrame` keeps it, the rectangle is
      the frame-th one along the top edge of the sheet. */
  lemma SpriteArgsFirstRow(s: Sprite)
    requires ValidFrame(s)
    ensures SpriteArgsToDraw(s) == Some(SourceRect(0, s.frame, s.frameWidth, s.frameHeight))
    ensures SpriteArgsToDraw(s).Some?
    ensures SpriteArgsToDraw(s).value.x == s.frame as real * s.frameWidth
    ensures SpriteArgsToDraw(s).value.y == 0.0
  {
    Grid.JoinPlace(s.frame + 1, s.cols, 0, s.frame);
    assert Grid.CellByNumber(s.frame + 1, s.rows, s.cols, false) == Some(Grid.Cell(1, s.frame + 1));
    assert SpriteArgsToDraw(s) == Some(SourceRect(0, s.frame, s.frameWidth, s.frameHeight));
  }
}
